=== FILE: README.md ===
# Orion-LD explorer backend: authentication and proxying, in Dafny

This project models the server side of the Orion-LD explorer. The explorer is a
browser front end for an NGSI-LD context broker, with sign-in through a
Keycloak realm. The server side has three parts:

- **The Flask backend** (`static/backend-sr-explorer.py`):
  - the OAuth2 authorization-code flow against Keycloak: login, callback,
    refresh and logout;
  - the session endpoints: current user, tenant choice;
  - the token utilities: verify-token, direct (password-grant) token,
    token details, retrieve-token;
  - two forwarding proxies: `/api/ngsi-ld/v1/...` to the broker and
    `/api/data-products[/...]` to the data-products API.
- **The earlier Flask backend** (`static/____backend-auth-example.py`). It has
  the same handlers with the settings written into the code. It has no
  retrieve-token and no data-products route. Its settings are `Http.DefaultConfig`.
- **The FastAPI proxy** (`backend/app.py`). It forwards every NGSI-LD request to
  the broker without any authentication check.

Every handler is a pure function:

```
(Config, Request, Session, provider reply, decoder, clock) -> Outcome(Response, Session, provider call)
```

- **The response** carries the status, a JSON or raw body, an optional
  redirect target, its headers, and the ordered list of cookie writes.
- **The provider call** is the form the handler posts to Keycloak, if it posts
  one.
- **The provider's reply** is an input: a status with text and optional JSON,
  or a transport failure.

Other inputs are also passed in as parameters:

- the freshly generated `state` of login;
- the current time;
- the base64-and-JSON decoding of a token segment;
- the timestamp formatter of token-details.

The modules:

| module | what it holds |
|---|---|
| `Wrappers`, `Text`, `JsonValue` | Option/Result; Python string operations (split, startswith, `in`, lower, rstrip); JSON values with Python truthiness, `dict.get`, `in` and bool-as-int |
| `Faults`, `Jwt` | the exceptions the handlers raise; the payload codec (split on '.', pad to a multiple of four, decode) |
| `Tenant` | the `TenantId`/`tenant_id`/`tenantId`/`Tenant`/`tenant` precedence chain, and an independent reference definition of it |
| `Headers`, `Pairs` | werkzeug header lists (case-insensitive lookup, `headers[name] = v`); first-wins and last-wins dict collapse of pair lists, and the one-pair-per-name list `requests` sends for a werkzeug `MultiDict` |
| `Http` | requests, sessions, cookie writes, responses, configuration, provider calls |
| `AuthCommon` | frontend URL, callback URI, token-cookie writing, user extraction, the provider forms |
| `AuthFlow`, `AuthUser`, `AuthTokens` | the ten auth endpoints |
| `FlaskProxy`, `AsyncProxy` | the two Flask proxies and the FastAPI proxy |
| `Browser` | a cookie jar applying cookie writes as section 5.3 of RFC 6265 stores them, used to chain handlers (login → callback → proxy, logout → everything) |
| `ExampleBackend` | the earlier Flask backend as the handlers under `DefaultConfig` |

Behaviour of the code worth knowing, which the model keeps as written:

- **`oauth_state` is never removed.** The callback compares it but leaves it
  in the session, so a callback can be replayed (`AuthFlow.CallbackReplayable`).
- **A `TenantId` that is an empty list, or neither a list nor a string,
  gives "Default".** The chain stops at `TenantId` and never consults the
  later keys. A non-empty list gives its head, and a `TenantId` of `""`
  gives `""`.
- **Tenant values are any JSON value.** The chain copies the claim as it is,
  not only strings.
- **The session's tenant is a fallback only in `get_user_info`.** The other
  handlers fall back to "Default".
- **A decode failure is swallowed after the cookies are written.** The callback
  and refresh write the token cookies before decoding the access token. When
  decoding fails they still succeed, and they leave the session's user alone.
- **verify-token writes the session's user before computing the lifetime.**
  A token whose `exp`/`iat` arithmetic raises still updates the user.
- **refresh and direct-token always write non-secure cookies.** They pass
  `secure=False` whatever `SECURE_COOKIES` says. Callback, verify-token and
  retrieve-token honour the setting.
- **The broker proxy's tenant filter is case-sensitive for "Synchro" only.**
  It drops "default" in any letter case, but drops "Synchro" only in that
  exact spelling.
- **The data-products proxy admits a `GET` without an access cookie.**
- **`backend/app.py` checks nothing.** It forwards every header except
  `host`.

## Model

| member | source | states |
|---|---|---|
| Jwt.PadCount | static/backend-sr-explorer.py:179 | the '=' count is at most 3, reaches a multiple of four, and is the least that does |
| Jwt.Pad | static/backend-sr-explorer.py:178-180 | the padded segment extends the original with '=' only, has a length that is a multiple of four, and is the shortest such extension; an aligned segment is unchanged |
| Jwt.PadAbsorbsPadding | static/backend-sr-explorer.py:179 | a segment that already carries some of its padding pads to the same string as the bare segment |
| Jwt.DecodeSegment | static/backend-sr-explorer.py:727-737 | a segment decodes exactly when its padded form decodes |
| Jwt.DecodeClaims | static/backend-sr-explorer.py:176-181 | a token with fewer than two segments raises IndexError; the claims are the JSON object encoded by the padded second segment |
| Jwt.PayloadRoundTrip | static/backend-sr-explorer.py:176-181 | a token assembled from three dot-free segments splits back into them and decodes to the payload's claims, however much padding the issuer stripped |
| Text.Split | static/backend-sr-explorer.py:177 | `split('.')` gives at least one part, no part contains '.', and the parts joined with '.' give back the token |
| Tenant.FirstPresent | static/backend-sr-explorer.py:190-211 | the index of the first tenant key present, with none present before it, or none at all |
| Tenant.Resolve | static/backend-sr-explorer.py:183-211 | the if/elif chain agrees with the precedence definition: the first present key decides; `TenantId` gives its list head, itself if a string, else "Default"; the fallback only without any key |
| Tenant.FallbackOnlyWithoutTenantClaim | static/backend-sr-explorer.py:184-211 | the fallback matters only when none of the five tenant claims is present |
| Tenant.EmptyTenantIdShadowsLaterKeys | static/backend-sr-explorer.py:191-197 | a present `TenantId` that is an empty list, null or a number gives "Default" even when a later key holds a tenant |
| AuthCommon.FrontendUrl | static/backend-sr-explorer.py:36-56 | a non-empty `Origin` header is the frontend; otherwise `http://` plus the request host (all three host branches agree) |
| AuthCommon.CallbackUri | static/backend-sr-explorer.py:92 | the redirect URI is the URL root with all its trailing slashes removed, followed by `/api/auth/callback` |
| AuthCommon.Field | static/backend-sr-explorer.py:150-170 | a reply field is read exactly when the reply is an object holding the key, else KeyError/TypeError |
| AuthCommon.TokenCookies | static/backend-sr-explorer.py:150-173 | the cookies are written exactly when the grant has a string access token, an integer lifetime and a string refresh token: an http-only access cookie living `expires_in` seconds and a refresh cookie living twice as long |
| AuthCommon.UserFromClaims | static/backend-sr-explorer.py:183-217 | the session user is the token's `preferred_username` (else "unknown_user") and its resolved tenant with "Default" as fallback |
| AuthCommon.WithDecodedUser | static/backend-sr-explorer.py:175-220 | a decodable access token sets the session's user and nothing else; an undecodable one leaves the session unchanged |
| AuthFlow.Login | static/backend-sr-explorer.py:80-100 | stores the fresh state in the session and redirects to the authorization endpoint with exactly `client_id`, the callback URI, `response_type=code`, `scope=openid profile email` and that state, in that order |
| AuthFlow.Callback | static/backend-sr-explorer.py:102-226 | state check, then code check, before any call; a non-200 reply gives 400; a transport failure, a 200 reply that is not JSON, or a malformed grant gives 500 with the error text and no change; the browser is logged in exactly when a 200 reply carries a well-formed grant, with the cookies written in order and the user decoded; the stored state and tenant are kept |
| AuthFlow.Logout | static/backend-sr-explorer.py:228-283 | the session is cleared; the provider's end-session endpoint is called exactly when a refresh cookie is present; the redirect carries the five cookie writes and no-cache headers |
| AuthFlow.Refresh | static/backend-sr-explorer.py:285-390 | 401 with no call without a refresh cookie; 401 on a non-200 reply; 500 with the error text on a transport failure, a 200 reply that is not JSON, or a malformed grant; 200 exactly when the reply is a well-formed grant, with non-secure token cookies and the decoded user |
| AuthFlow.LoginThenCallbackAccepted | static/backend-sr-explorer.py:80-114 | a callback carrying back the state login sent passes the state check |
| AuthFlow.CallbackReplayable | static/backend-sr-explorer.py:108-114 | a callback that passed the state check leaves the state in place, so the same callback passes it again |
| AuthFlow.CallbackSwallowsDecodeFailure | static/backend-sr-explorer.py:145-222 | with a well-formed grant whose access token does not decode, the callback still redirects with the cookies and leaves the session unchanged |
| AuthUser.UserInfo | static/backend-sr-explorer.py:392-458 | always 200; unauthenticated without a cookie or on a decode error (with its message); otherwise the token's user, with the session's tenant as fallback, stored as the session tenant |
| AuthUser.SetTenant | static/backend-sr-explorer.py:460-475 | a truthy `tenant` of any JSON type is stored and echoed with 200; a missing or falsy one gives 400 and no change |
| AuthUser.ChosenTenantReportedUnlessTokenNamesOne | static/backend-sr-explorer.py:392-475 | a tenant chosen through the tenant endpoint is reported by the user endpoint exactly when the token carries no tenant claim |
| AuthTokens.ClaimedLifetime | static/backend-sr-explorer.py:556 | `exp - iat` with defaults 3600 and 0 for a missing claim, in all four presence cases; defined exactly when both are integers or booleans |
| AuthTokens.VerifyToken | static/backend-sr-explorer.py:477-570 | 400 without a token and 400 "Invalid token format" for a wrong segment count; 200 exactly when a decodable three-segment string token has a computable lifetime, with the access cookie living that lifetime; the session user changes only for a decodable three-segment token |
| AuthTokens.RefusalMessage | static/backend-sr-explorer.py:599-601 | the refusal text is the reply's `error_description`, else "Invalid credentials"; a null, boolean or integer description is rendered as `str()` renders it ("None", "True"/"False", its decimal digits); a non-object reply raises |
| AuthTokens.DirectCookies | static/backend-sr-explorer.py:674-695 | the access cookie lives `expires_in` (default 3600) seconds; the refresh cookie is written only when the reply has one, living twice as long |
| AuthTokens.DirectToken | static/backend-sr-explorer.py:572-706 | a password grant is posted exactly when both credentials are present; a refusal gives 401; a transport failure, a 200 reply that is not JSON or lacks a string `access_token`, or a token that does not decode gives 500 with the session unchanged; a granted token of the wrong segment count gives 400; cookies that cannot be written give 500 with the user already written; a decodable three-segment token whose cookies can be written gives 200 with the user, body and cookies; cookies are written only with 200 |
| AuthTokens.Annotate | static/backend-sr-explorer.py:739-749 | on an object, a present `exp`/`iat` gains its formatted companion key and every other key is kept, and an absent one changes nothing; a list or string is returned unchanged exactly when `in` does not find the claim, and any failure is a TypeError |
| AuthTokens.Details | static/backend-sr-explorer.py:727-749 | the header is the decoding of the first segment; an object payload keeps every key and a present `exp`/`iat` gains its formatted companion, and it always succeeds when its timestamps format; a payload of any other type is shown exactly as decoded, and succeeds exactly when neither "exp" nor "iat" is `in` it |
| AuthTokens.TokenDetails | static/backend-sr-explorer.py:708-762 | unauthenticated without a cookie; 400 "Invalid token format" exactly for a cookie that is not three segments; otherwise authenticated with preview, header, annotated payload and signature exactly when decoding and formatting succeed, else unauthenticated with the error; never a cookie write or redirect |
| AuthTokens.RemainingLifetimeNonNegative | static/backend-sr-explorer.py:904-946 | a token that passed the expiry check reports a remaining lifetime of zero or more |
| AuthTokens.RetrieveByRefresh | static/backend-sr-explorer.py:780-887 | the refresh grant is posted; 401 on a non-200 reply; 200 exactly for a well-formed grant, with token cookies and the decoded user |
| AuthTokens.RetrieveToken | static/backend-sr-explorer.py:764-964 | a call only without an access cookie and with a refresh cookie; 401 "No token available" with neither; an undecodable token or a non-numeric `exp` gives 500; an expired token redirects to refresh when a refresh cookie exists, else 401; a valid one gives 200 with `exp - int(now)` as its remaining lifetime |
| FlaskProxy.TargetUrl | static/backend-sr-explorer.py:998-1001 | the broker target is the base URL, `/ngsi-ld/v1/` and the subpath unchanged; the data-products target is `/api/data-products` with `/<subpath>` appended only for a non-empty subpath |
| FlaskProxy.BasePart | static/backend-sr-explorer.py:1005-1008 | `Content-Type` and `Accept` are the client's, defaulting to JSON |
| FlaskProxy.TenantPart | static/backend-sr-explorer.py:1010-1013 | the tenant entry is present exactly when the broker filter passes |
| FlaskProxy.AuthPart | static/backend-sr-explorer.py:1018-1020 | the authorization entry is the client's header, or for data products the cookie's bearer token |
| FlaskProxy.OutboundHeaders | static/backend-sr-explorer.py:1004-1020 | only the four outbound names are sent; each reads as its part says; the tenant is sent exactly when the filter passes |
| FlaskProxy.CopyRelayedLookup | static/backend-sr-explorer.py:1047-1050 | after the copy loop an allowlisted name reads as the last upstream value under it (requests has already joined repeated values with ", "), anything else as before |
| FlaskProxy.RelayedHeaderLookup | static/backend-sr-explorer.py:1044-1054 | the client reads the CORS headers, else the last allowlisted upstream value, else the base header |
| FlaskProxy.ProxyError | static/backend-sr-explorer.py:1058-1071 | 503 exactly when the error text says "Connection refused", else 500, with the text as technical details |
| FlaskProxy.Proxy | static/backend-sr-explorer.py:966-1071 | preflights answered locally; 401 and no forwarding when the cookie gate refuses; otherwise forwarded once with the outbound headers, one query pair per argument name and `request.data`, and status and bytes relayed unchanged; never a cookie |
| FlaskProxy.ForwardedArgs | static/backend-sr-explorer.py:1028-1035 | every query argument reaches the upstream with the value `request.args.get` reads, and no name is sent twice, so a repeated name goes with its first value only |
| Pairs.FirstPairs | static/backend-sr-explorer.py:1032 | `params=request.args` sends one pair per name, each holding that name's first value |
| Pairs.FirstPairsLookup | static/backend-sr-explorer.py:1032 | collapsing to one pair per name keeps every name and its first value |
| FlaskProxy.TenantFilterExamples | static/backend-sr-explorer.py:1010-1013 | "DEFAULT" and "Synchro" are dropped, "synchro" is forwarded |
| AsyncProxy.ForwardedHeaders | backend/app.py:46-49 | every inbound header but `host` is forwarded, with the first value sent under its name |
| AsyncProxy.JoinedHeaders | backend/app.py:85-89 | the reply's header map has one entry per lower-cased name, holding its values joined with ", " in arrival order |
| AsyncProxy.ProxyRequest | backend/app.py:33-98 | same method, target under `/ngsi-ld/v1/`, a body only for POST/PUT/PATCH, headers first-wins minus host, query last-wins; status and bytes back unchanged; any exception becomes a JSON 500 with its text |
| AsyncProxy.RepeatedKeys | backend/app.py:46-52 | a header sent twice goes with its first value, a query parameter with its last |
| Browser.ApplyAllLookup | static/backend-sr-explorer.py:269-281 | after a response's cookie writes, the last write of a name decides it, and untouched names keep their value |
| Browser.LogoutClearsTokens | static/backend-sr-explorer.py:269-281 | after logout the browser holds neither token and holds `logged_out=true` |
| Browser.SignedOutAfterLogout | static/backend-sr-explorer.py:228-283 | after logout the user endpoint reports unauthenticated, refresh is refused without a call, retrieve-token has nothing, and the broker proxy refuses |
| Browser.CallbackCookiesStored | static/backend-sr-explorer.py:145-173 | the callback's three writes with a positive lifetime leave both tokens stored and the `logged_out` marker gone |
| Browser.SignedInAfterCallback | static/backend-sr-explorer.py:102-226 | after a successful callback with a positive lifetime the browser holds the granted access and refresh tokens and no `logged_out` marker |
| Browser.BrokerOpenAfterCallback | static/backend-sr-explorer.py:987-991 | the request following such a callback passes the broker proxy's cookie gate when the access token is non-empty |
| ExampleBackend.ExampleCallbackNeverSecure | static/____backend-auth-example.py:88-208 | the earlier backend's callback never sets a secure cookie |
| ExampleBackend.ExampleRefreshNeverSecure | static/____backend-auth-example.py:267-372 | the earlier backend's refresh never sets a secure cookie |
| ExampleBackend.ExampleLogoutNeverSecure | static/____backend-auth-example.py:210-265 | the earlier backend's logout never sets a secure cookie |
| ExampleBackend.ExampleVerifyTokenNeverSecure | static/____backend-auth-example.py:459-549 | the earlier backend's verify-token never sets a secure cookie |
| ExampleBackend.ExampleDirectTokenNeverSecure | static/____backend-auth-example.py:551-685 | the earlier backend's direct-token never sets a secure cookie |
| ExampleBackend.ExampleBrokerTarget | static/____backend-auth-example.py:775 | the earlier backend's broker proxy targets the hard-coded broker URL |

## Left out

- **Not modelled at all:**
  - The network:
    - HTTP transport and the real Keycloak and broker servers. Their replies
      are parameters.
    - The httpx client's timeout and content decoding.
  - Wiring and startup:
    - Flask routing and the 405 answers for other methods.
    - The Flask-CORS and FastAPI CORS middleware.
    - Static-file, schema, health and context routes.
    - Logging, `.env` loading and the `DEBUG` prints.
    - Application bootstrap.
  - Nondeterminism: `uuid4()` for the login state and `time.time()` are
    inputs. A handler reads one instant, even where the source calls the
    clock twice.
- **Left uninterpreted or approximated:**
  - Decoding and rendering:
    - Base64 and JSON decoding are one uninterpreted partial function
      (`Jwt.SegmentDecoder`).
    - `urlencode` is not rendered: the login redirect keeps its ordered
      parameter list.
    - JSON serialization is not rendered.
    - `datetime.fromtimestamp(...).strftime(...)` is a formatter parameter.
  - Python exception texts: the text of TypeError, JSON-decode and base64
    errors is a fixed placeholder (`Faults.Describe`). KeyError, IndexError
    and transport messages are exact.
  - Values of unexpected type:
    - JSON numbers are integers: a float `exp`, `iat` or `expires_in` is
      not modelled.
    - A non-string cookie value, or a non-integer `max_age`, is treated as
      raising.
    - A `null` `expires_in` in direct-token is treated as TypeError.
    - A `request.json` that is not a JSON object is modelled as absent.
    - `request.json` follows Werkzeug before 2.1, where a body that is not
      JSON reads as `None`. From Werkzeug 2.3 on, a request without a JSON
      content type raises 415 instead. `set_tenant` then answers 415, not
      500. `verify_token` and `direct_token` catch the error and answer
      500, not 400.
  - `str()` of a list or dict (`JsonValue.PyStr`) is a placeholder, "[...]"
    or "{...}", not Python's rendering. It shows only in a direct-token
    refusal whose `error_description` is a list or an object.
  - `Text.Lower` and `Text.IsDigits` cover ASCII only, where Python's `lower`
    and `isdigit` cover Unicode.
  - Default headers: Flask's other default response headers and Starlette's
    added `content-length` are not modelled. The proxied body's
    `Content-Type`/`Content-Length` base headers are modelled.
- **Weaker contracts:**
  - AuthTokens.Details: requires three segments. Its only caller,
    `TokenDetails`, checks that first, as the source does.
  - AuthTokens.RemainingLifetimeNonNegative: holds only for tokens whose
    `exp`, when present, is an integer or boolean. Any other `exp` makes the
    source's comparison raise, and the handler answers 500 before reaching
    this computation.
- **Not done by the source either:** the JWT signature is never verified.

=== FILE: async_proxy.dfy ===
/** The standalone FastAPI proxy (backend/app.py): every NGSI-LD request
    is forwarded to the broker without any authentication check, with the
    client's headers minus `Host`, its query parameters, and a body only
    for methods that carry one. */
module AsyncProxy {
  import opened Wrappers
  import opened Text
  import opened JsonValue
  import opened Headers
  import opened Pairs
  import opened Http

  /** `ORION_LD_URL` when the environment does not set it. */
  const DefaultOrionUrl := "http://localhost:1026"

  /** The inbound request as Starlette sees it: the method, the `{path}`
      capture, the raw header list (names lower-cased by the ASGI server),
      the raw query pairs, and the body. */
  datatype Inbound = Inbound(verb: string, path: string, headers: HeaderList, query: PairList, body: seq<byte>)

  /** What `http_client.request(...)` gave: the broker's reply, or the
      exception it raised (any exception, not only transport errors). */
  datatype BrokerAnswer =
    | Answer(status: int, headers: HeaderList, content: seq<byte>)
    | Raised(message: string)

  /** The request sent to the broker. */
  datatype Outbound = Outbound(verb: string, url: string, params: map<string, string>,
                               headers: map<string, string>, content: seq<byte>)

  /** The `Response` returned to the client: status, body, the header map
      passed in, and the media type. */
  datatype Reply = Reply(status: int, body: Body, headers: map<string, string>, mediaType: Option<string>)

  datatype Exchange = Exchange(outbound: Outbound, reply: Reply)

  /** Only these methods have their body read and forwarded. */
  predicate SendsBody(verb: string) {
    verb == "POST" || verb == "PUT" || verb == "PATCH"
  }

  /** `dict(request.headers)` with `host` popped: one entry per name,
      holding the first value sent under it. */
  function ForwardedHeaders(hs: HeaderList): (m: map<string, string>)
    ensures "host" !in m
    ensures forall k :: k != "host" ==> (k in m <==> FirstValue(hs, k).Some?)
    ensures forall k :: k in m ==> FirstValue(hs, k) == Some(m[k])
  {
    DictFirst(hs) - {"host"}
  }

  /** The values an httpx header map holds under a lower-case name, in the
      order they arrived. */
  function ValuesOf(hs: HeaderList, name: string): seq<string>
    decreases |hs|
  {
    if |hs| == 0 then []
    else (if Lower(hs[0].0) == name then [hs[0].1] else []) + ValuesOf(hs[1..], name)
  }

  /** `", ".join(values)`. */
  function JoinComma(vs: seq<string>): string
    decreases |vs|
  {
    if |vs| == 0 then ""
    else if |vs| == 1 then vs[0]
    else vs[0] + ", " + JoinComma(vs[1..])
  }

  /** `dict(response.headers)` on an httpx response: names lower-cased,
      and the values of a name sent more than once joined with ", ". */
  function JoinedHeaders(hs: HeaderList): (m: map<string, string>)
    ensures forall k :: k in m <==> |ValuesOf(hs, k)| > 0
    ensures forall k :: k in m ==> m[k] == JoinComma(ValuesOf(hs, k))
    decreases |hs|
  {
    if |hs| == 0 then map[]
    else
      var rest := JoinedHeaders(hs[1..]);
      var k := Lower(hs[0].0);
      var v := hs[0].1;
      var m := if k in rest then rest[k := v + ", " + rest[k]] else rest[k := v];
      assert forall k' | k' != k :: ValuesOf(hs, k') == ValuesOf(hs[1..], k');
      assert ValuesOf(hs, k) == [v] + ValuesOf(hs[1..], k);
      assert JoinComma(ValuesOf(hs, k)) == m[k] by {
        var later := ValuesOf(hs[1..], k);
        if k in rest {
          assert ([v] + later)[1..] == later;
        } else {
          assert later == [];
          assert [v] + later == [v];
        }
      }
      m
  }

  /** The error reply: `json.dumps({"error": str(e)})` with status 500. */
  function ErrorReply(message: string): Reply {
    Reply(500, JsonBody(map["error" := JStr(message)]), map[], Some("application/json"))
  }

  /** `proxy_request`: forwards to `<orion>/ngsi-ld/v1/<path>` with the
      same method; GET and DELETE never carry a body; `Host` is never
      forwarded and every other header goes with its first value; a query
      key sent twice goes with its LAST value. The broker's status and
      bytes come back unchanged with its headers merged per name; any
      exception becomes a JSON 500 carrying its message. */
  function ProxyRequest(orionUrl: string, req: Inbound, answer: BrokerAnswer): (x: Exchange)
    ensures x.outbound.verb == req.verb
    ensures x.outbound.url == orionUrl + "/ngsi-ld/v1/" + req.path
    ensures x.outbound.content == if SendsBody(req.verb) then req.body else []
    ensures "host" !in x.outbound.headers
    ensures forall k :: k != "host" && FirstValue(req.headers, k).Some?
                        ==> k in x.outbound.headers && x.outbound.headers[k] == FirstValue(req.headers, k).value
    ensures forall k :: k in x.outbound.headers ==> FirstValue(req.headers, k).Some?
    ensures forall k :: k in x.outbound.params <==> LastValue(req.query, k).Some?
    ensures forall k :: k in x.outbound.params ==> LastValue(req.query, k) == Some(x.outbound.params[k])
    ensures answer.Answer? ==>
              x.reply == Reply(answer.status, RawBody(answer.content), JoinedHeaders(answer.headers), None)
    ensures answer.Raised? ==> x.reply == ErrorReply(answer.message)
  {
    var content := if SendsBody(req.verb) then req.body else [];
    var outbound := Outbound(req.verb, orionUrl + "/ngsi-ld/v1/" + req.path, DictLast(req.query),
                             ForwardedHeaders(req.headers), content);
    match answer
    case Raised(m) => Exchange(outbound, ErrorReply(m))
    case Answer(status, hs, bytes) => Exchange(outbound, Reply(status, RawBody(bytes), JoinedHeaders(hs), None))
  }

  /** The two collapses differ on repeated keys: a header sent twice is
      forwarded with its first value, a query parameter with its last. */
  lemma RepeatedKeys(name: string, a: string, b: string)
    requires name != "host"
    ensures var x := ProxyRequest(DefaultOrionUrl, Inbound("GET", "entities", [(name, a), (name, b)], [(name, a), (name, b)], []), Raised(""));
            x.outbound.headers[name] == a && x.outbound.params[name] == b
  {
  }
}

=== FILE: auth_common.dfy ===
/** What the authentication handlers share: the frontend-URL decision, the
    callback URI, reading fields of a provider reply, the token cookies
    written after a successful grant, the user derived from a token's
    claims, and the form posts made to the identity provider. */
module AuthCommon {
  import opened Wrappers
  import opened Text
  import opened JsonValue
  import opened Faults
  import opened Jwt
  import opened Tenant
  import opened Headers
  import opened Http

  // ---------------------------------------------------------------------
  // frontend URL and callback URI

  /** Some dot-separated label of the host is all digits (an IP address). */
  predicate HasNumericLabel(host: string) {
    var labels := Split(host, '.');
    exists i | 0 <= i < |labels| :: IsDigits(labels[i])
  }

  /** `get_frontend_url()`: the `Origin` header when it is present and
      non-empty; otherwise every branch (localhost, IP with or without a
      port, any other host) gives `"http://" + host`. */
  function FrontendUrl(req: Request): (url: string)
    ensures Present(GetHeader(req.headers, "Origin")) ==> url == GetHeader(req.headers, "Origin").value
    ensures !Present(GetHeader(req.headers, "Origin")) ==> url == "http://" + req.host
  {
    var origin := GetHeader(req.headers, "Origin");
    if Present(origin) then origin.value
    else if StartsWith(req.host, "localhost") || StartsWith(req.host, "127.0.0.1") then "http://" + req.host
    else if HasNumericLabel(req.host) then
      if |Split(req.host, ':')| > 1 then "http://" + req.host else "http://" + req.host
    else "http://" + req.host
  }

  /** `request.url_root.rstrip('/') + '/api/auth/callback'`: no doubled
      slash, whatever number of trailing slashes the root carries. */
  function CallbackUri(urlRoot: string): (uri: string)
    ensures exists k :: 0 <= k <= |urlRoot| && uri == urlRoot[..k] + "/api/auth/callback"
                        && (k == 0 || urlRoot[k - 1] != '/')
                        && forall i :: k <= i < |urlRoot| ==> urlRoot[i] == '/'
  {
    var root := RStrip(urlRoot, '/');
    assert root == urlRoot[..|root|];
    root + "/api/auth/callback"
  }

  // ---------------------------------------------------------------------
  // reading a provider reply

  /** `tokens[key]` on the parsed reply: `KeyError` for an absent key,
      `TypeError` when the reply is not a JSON object. */
  function Field(tokens: Json, key: string): (r: Result<Json, Fault>)
    ensures r.Ok? <==> tokens.JObj? && key in tokens.fields
    ensures r.Ok? ==> r.value == tokens.fields[key]
  {
    match tokens
    case JObj(m) => if key in m then Ok(m[key]) else Err(KeyError(key))
    case _ => Err(TypeError)
  }

  /** A cookie value must be a string, or `set_cookie` raises. */
  function AsString(j: Json): Result<string, Fault> {
    match j
    case JStr(s) => Ok(s)
    case _ => Err(TypeError)
  }

  /** A `max_age` must be an int (or bool), or `set_cookie` raises. */
  function AsMaxAge(j: Json): Result<int, Fault> {
    match AsPyInt(j)
    case Some(i) => Ok(i)
    case None => Err(TypeError)
  }

  // ---------------------------------------------------------------------
  // cookies

  function AccessCookie(value: string, maxAge: int, secure: bool): CookieWrite {
    SetCookie("access_token", value, maxAge, true, secure, Lax)
  }

  function RefreshCookie(value: string, maxAge: int, secure: bool): CookieWrite {
    SetCookie("refresh_token", value, maxAge, true, secure, Lax)
  }

  /** The reply is a JSON object carrying a string `access_token`, an
      integer `expires_in` and a string `refresh_token`. */
  predicate WellFormedGrant(tokens: Json) {
    && tokens.JObj?
    && "access_token" in tokens.fields && tokens.fields["access_token"].JStr?
    && "expires_in" in tokens.fields && AsPyInt(tokens.fields["expires_in"]).Some?
    && "refresh_token" in tokens.fields && tokens.fields["refresh_token"].JStr?
  }

  /** The two `set_cookie` calls after a successful exchange (callback,
      refresh, retrieve-token): an http-only access cookie living
      `expires_in` seconds and an http-only refresh cookie living twice as
      long. Lookups and type checks fail in the order Python makes them. */
  function TokenCookies(tokens: Json, secure: bool): (r: Result<TokenGrant, Fault>)
    ensures r.Ok? <==> WellFormedGrant(tokens)
    ensures r.Ok? ==> && r.value.access == tokens.fields["access_token"].s
                      && Some(r.value.expiresIn) == AsPyInt(tokens.fields["expires_in"])
                      && r.value.cookies == [AccessCookie(r.value.access, r.value.expiresIn, secure),
                                             RefreshCookie(tokens.fields["refresh_token"].s, 2 * r.value.expiresIn, secure)]
  {
    var a :- Field(tokens, "access_token");
    var e :- Field(tokens, "expires_in");
    var access :- AsString(a);
    var ttl :- AsMaxAge(e);
    var rt :- Field(tokens, "refresh_token");
    var refresh :- AsString(rt);
    Ok(TokenGrant(access, ttl, [AccessCookie(access, ttl, secure), RefreshCookie(refresh, ttl * 2, secure)]))
  }

  // ---------------------------------------------------------------------
  // user and session

  /** `{'username': claims.get('preferred_username', 'unknown_user'),
      'tenant': <resolved>}` with "Default" as the resolver's fallback. */
  function UserFromClaims(claims: ClaimMap): (u: User)
    ensures u.tenant == ByPrecedence(claims, DefaultTenant)
    ensures "preferred_username" in claims ==> u.username == claims["preferred_username"]
    ensures "preferred_username" !in claims ==> u.username == JStr("unknown_user")
  {
    User(Get(claims, "preferred_username", JStr("unknown_user")), Resolve(claims, DefaultTenant))
  }

  /** The session after `session['user'] = ...` inside a `try` whose
      failure is swallowed: written when the access token decodes, left
      alone otherwise. */
  function WithDecodedUser(s: Session, dec: SegmentDecoder, access: string): (s': Session)
    ensures s'.oauthState == s.oauthState && s'.tenant == s.tenant
    ensures DecodeClaims(dec, access).Err? ==> s' == s
    ensures DecodeClaims(dec, access).Ok? ==> s'.user == Some(UserFromClaims(DecodeClaims(dec, access).value))
  {
    match DecodeClaims(dec, access)
    case Ok(claims) => s.(user := Some(UserFromClaims(claims)))
    case Err(_) => s
  }

  // ---------------------------------------------------------------------
  // calls to the identity provider

  function ClientCredentials(cfg: Config): seq<(string, Json)> {
    [("client_id", JStr(cfg.clientId)), ("client_secret", JStr(cfg.clientSecret))]
  }

  /** The authorization-code exchange. */
  function CodeExchange(cfg: Config, code: string, redirectUri: string): ProviderCall {
    ProviderCall(cfg.tokenUrl,
      [("grant_type", JStr("authorization_code"))] + ClientCredentials(cfg)
      + [("code", JStr(code)), ("redirect_uri", JStr(redirectUri))])
  }

  /** The refresh-token grant. */
  function RefreshGrant(cfg: Config, refreshToken: string): ProviderCall {
    ProviderCall(cfg.tokenUrl,
      [("grant_type", JStr("refresh_token"))] + ClientCredentials(cfg)
      + [("refresh_token", JStr(refreshToken))])
  }

  /** The resource-owner password grant. */
  function PasswordGrant(cfg: Config, username: Json, password: Json): ProviderCall {
    ProviderCall(cfg.tokenUrl,
      [("grant_type", JStr("password"))] + ClientCredentials(cfg)
      + [("username", username), ("password", password), ("scope", JStr("openid profile email"))])
  }

  /** The fire-and-forget logout post. */
  function EndSession(cfg: Config, refreshToken: string): ProviderCall {
    ProviderCall(cfg.logoutUrl, ClientCredentials(cfg) + [("refresh_token", JStr(refreshToken))])
  }
}

=== FILE: auth_flow.dfy ===
/** The browser-driven OAuth 2.0 authorization-code flow: login, the
    callback that exchanges the code for tokens, logout and the
    refresh-token grant. Each handler is a function from the request, the
    session and the identity provider's reply to an `Outcome`. */
module AuthFlow {
  import opened Wrappers
  import opened Text
  import opened JsonValue
  import opened Faults
  import opened Jwt
  import opened Headers
  import opened Pairs
  import opened Http
  import opened AuthCommon

  // ---------------------------------------------------------------------
  // login

  /** The query the login redirect carries to the authorization endpoint. */
  function AuthorizationQuery(cfg: Config, req: Request, state: string): seq<(string, string)> {
    [("client_id", cfg.clientId),
     ("redirect_uri", CallbackUri(req.urlRoot)),
     ("response_type", "code"),
     ("scope", "openid profile email"),
     ("state", state)]
  }

  /** `/api/auth/login`: remembers a fresh `state` (a uuid4, passed in) in
      the session and redirects to the authorization endpoint asking for an
      authorization code for the configured client, with the OpenID scopes,
      the callback URI and that state; nothing else in the session changes and
      no call is made. */
  function Login(cfg: Config, req: Request, s: Session, state: string): (o: Outcome)
    ensures o.session == s.(oauthState := Some(state))
    ensures o.call.None? && o.response.cookies == []
    ensures o.response.status == 302 && o.response.location.Some?
    ensures o.response.location.value.url == cfg.authUrl
    ensures var q := o.response.location.value.query;
            && |q| == 5
            && q[0] == ("client_id", cfg.clientId)
            && q[1] == ("redirect_uri", CallbackUri(req.urlRoot))
            && q[2] == ("response_type", "code")
            && q[3] == ("scope", "openid profile email")
            && q[4] == ("state", state)
  {
    Outcome(Redirect(Location(cfg.authUrl, AuthorizationQuery(cfg, req, state))),
            s.(oauthState := Some(state)), None)
  }

  // ---------------------------------------------------------------------
  // callback

  /** The CSRF gate of the callback: the `state` argument is present,
      non-empty and equal to the one stored by login. */
  predicate StateAccepted(req: Request, s: Session) {
    Present(req.Arg("state")) && req.Arg("state") == s.oauthState
  }

  /** The cookies of a successful callback: first the `logged_out` marker is
      deleted, then the two token cookies. */
  function CallbackCookies(g: TokenGrant): seq<CookieWrite> {
    [DeleteCookie("logged_out")] + g.cookies
  }

  /** `/api/auth/callback`. A missing or mismatching `state` gives 400 and
      so does a missing `code`, in that order, before any call. Otherwise the
      code is exchanged; a non-200 reply gives 400 with the provider's text,
      a raised error 500. On success the browser is sent to the frontend
      with the token cookies, which are written BEFORE the access token is
      decoded: a token that does not decode still logs the browser in, and
      only the session's user stays unwritten. The stored `oauth_state` is
      never removed, and the session tenant is never touched. */
  function Callback(cfg: Config, req: Request, s: Session, reply: ProviderReply,
                    dec: SegmentDecoder): (o: Outcome)
    ensures !StateAccepted(req, s) ==> o == Outcome(ErrorResponse(400, "Invalid state parameter"), s, None)
    ensures StateAccepted(req, s) && !Present(req.Arg("code"))
            ==> o == Outcome(ErrorResponse(400, "No authorization code provided"), s, None)
    ensures o.call.Some? <==> StateAccepted(req, s) && Present(req.Arg("code"))
    ensures o.call.Some? ==> o.call.value == CodeExchange(cfg, req.Arg("code").value, CallbackUri(req.urlRoot))
    ensures o.session.oauthState == s.oauthState && o.session.tenant == s.tenant
    ensures o.call.Some? && reply.Replied? && reply.status != 200
            ==> o == Outcome(ErrorResponse(400, "Failed to retrieve token: " + reply.text), s, o.call)
    ensures o.call.Some? && reply.TransportFailed?
            ==> o.response == ErrorResponse(500, "Error processing callback: " + reply.message) && o.session == s
    // a 200 reply that is not JSON, or whose grant is malformed, raises: 500
    ensures o.call.Some? && reply.Replied? && reply.status == 200 && reply.json.None?
            ==> o.response == FaultResponse(500, "Error processing callback: ", NotJson) && o.session == s
    ensures o.call.Some? && reply.Replied? && reply.status == 200 && reply.json.Some?
            && !WellFormedGrant(reply.json.value)
            ==> o.response == FaultResponse(500, "Error processing callback: ",
                                            TokenCookies(reply.json.value, cfg.secureCookies).error)
                && o.session == s
    // the browser is logged in exactly when a 200 reply carries a well-formed grant
    ensures o.response.status == 302
            <==> o.call.Some? && reply.Replied? && reply.status == 200
                 && reply.json.Some? && WellFormedGrant(reply.json.value)
    ensures o.response.status != 302 ==> o.response.cookies == [] && o.session == s
    ensures o.response.status == 302 ==>
              && o.response.location == Some(Location(FrontendUrl(req), []))
              && o.response.cookies == CallbackCookies(TokenCookies(reply.json.value, cfg.secureCookies).value)
              && o.session == WithDecodedUser(s, dec, reply.json.value.fields["access_token"].s)
  {
    if !StateAccepted(req, s) then
      Outcome(ErrorResponse(400, "Invalid state parameter"), s, None)
    else if !Present(req.Arg("code")) then
      Outcome(ErrorResponse(400, "No authorization code provided"), s, None)
    else
      var call := Some(CodeExchange(cfg, req.Arg("code").value, CallbackUri(req.urlRoot)));
      match reply
      case TransportFailed(m) =>
        Outcome(FaultResponse(500, "Error processing callback: ", Transport(m)), s, call)
      case Replied(status, text, json) =>
        if status != 200 then
          Outcome(ErrorResponse(400, "Failed to retrieve token: " + text), s, call)
        else if json.None? then
          Outcome(FaultResponse(500, "Error processing callback: ", NotJson), s, call)
        else
          match TokenCookies(json.value, cfg.secureCookies)
          case Err(f) =>
            Outcome(FaultResponse(500, "Error processing callback: ", f), s, call)
          case Ok(g) =>
            var resp := Redirect(Location(FrontendUrl(req), [])).(cookies := CallbackCookies(g));
            Outcome(resp, WithDecodedUser(s, dec, g.access), call)
  }

  // ---------------------------------------------------------------------
  // logout

  /** The cookie writes of logout, in order: both token cookies overwritten
      empty with max-age 0, then deleted, then a script-readable
      `logged_out=true` marker living 60 seconds. */
  const LogoutCookies: seq<CookieWrite> := [
    SetCookie("access_token", "", 0, true, false, NoSameSite),
    SetCookie("refresh_token", "", 0, true, false, NoSameSite),
    DeleteCookie("access_token"),
    DeleteCookie("refresh_token"),
    SetCookie("logged_out", "true", 60, false, false, Lax)]

  /** The cache-defeating headers logout sets, three distinct names. */
  const NoCacheHeaders: HeaderList := [
    ("Cache-Control", "no-cache, no-store, must-revalidate"),
    ("Pragma", "no-cache"),
    ("Expires", "0")]

  /** Where logout sends the browser: the frontend with markers that stop
      the frontend from logging in again, and `int(time.time())` against
      caches. */
  function LogoutTarget(req: Request, now: Time): string {
    FrontendUrl(req) + "?logout=success&no_auto_login=true&t=" + IntToString(now.Floor)
  }

  /** `/api/auth/logout`: posts the refresh token to the end-session
      endpoint only when the browser holds one (the reply, and any error,
      is ignored), clears the whole session whatever happened, and
      redirects with the cookie-clearing writes and no-cache headers. */
  function Logout(cfg: Config, req: Request, s: Session, now: Time): (o: Outcome)
    ensures o.session == EmptySession
    ensures o.call.Some? <==> Present(req.Cookie("refresh_token"))
    ensures o.call.Some? ==> o.call.value == EndSession(cfg, req.Cookie("refresh_token").value)
    ensures o.response.status == 302
    ensures o.response.location == Some(Location(LogoutTarget(req, now), []))
    ensures o.response.cookies == LogoutCookies
    ensures o.response.headers == NoCacheHeaders
  {
    var call := if Present(req.Cookie("refresh_token"))
                then Some(EndSession(cfg, req.Cookie("refresh_token").value)) else None;
    var resp := Redirect(Location(LogoutTarget(req, now), [])).(cookies := LogoutCookies, headers := NoCacheHeaders);
    Outcome(resp, EmptySession, call)
  }

  // ---------------------------------------------------------------------
  // refresh

  /** `/api/auth/refresh`: without a non-empty refresh cookie, 401 and no
      call. Otherwise the refresh grant is posted; a non-200 reply gives 401,
      a raised error 500. On success `{"success": true}` with both token
      cookies re-issued (never marked `secure`, unlike the callback), and
      the session user rewritten when the new access token decodes. */
  function Refresh(cfg: Config, req: Request, s: Session, reply: ProviderReply,
                   dec: SegmentDecoder): (o: Outcome)
    ensures !Present(req.Cookie("refresh_token"))
            ==> o == Outcome(ErrorResponse(401, "No refresh token available"), s, None)
    ensures o.call.Some? <==> Present(req.Cookie("refresh_token"))
    ensures o.call.Some? ==> o.call.value == RefreshGrant(cfg, req.Cookie("refresh_token").value)
    ensures o.session.oauthState == s.oauthState && o.session.tenant == s.tenant
    ensures o.call.Some? && reply.Replied? && reply.status != 200
            ==> o == Outcome(ErrorResponse(401, "Failed to refresh token"), s, o.call)
    // a transport failure, a 200 reply that is not JSON, or a malformed grant raises: 500
    ensures o.call.Some? && reply.TransportFailed?
            ==> o.response == FaultResponse(500, "Error refreshing token: ", Transport(reply.message)) && o.session == s
    ensures o.call.Some? && reply.Replied? && reply.status == 200 && reply.json.None?
            ==> o.response == FaultResponse(500, "Error refreshing token: ", NotJson) && o.session == s
    ensures o.call.Some? && reply.Replied? && reply.status == 200 && reply.json.Some?
            && !WellFormedGrant(reply.json.value)
            ==> o.response == FaultResponse(500, "Error refreshing token: ", TokenCookies(reply.json.value, false).error)
                && o.session == s
    ensures o.response.status == 200
            <==> o.call.Some? && reply.Replied? && reply.status == 200
                 && reply.json.Some? && WellFormedGrant(reply.json.value)
    ensures o.response.status != 200 ==> o.response.cookies == [] && o.session == s
    ensures o.response.status == 200 ==>
              && o.response.body == JsonBody(map["success" := JBool(true)])
              && o.response.cookies == TokenCookies(reply.json.value, false).value.cookies
              && o.session == WithDecodedUser(s, dec, reply.json.value.fields["access_token"].s)
  {
    if !Present(req.Cookie("refresh_token")) then
      Outcome(ErrorResponse(401, "No refresh token available"), s, None)
    else
      var call := Some(RefreshGrant(cfg, req.Cookie("refresh_token").value));
      match reply
      case TransportFailed(m) =>
        Outcome(FaultResponse(500, "Error refreshing token: ", Transport(m)), s, call)
      case Replied(status, _, json) =>
        if status != 200 then
          Outcome(ErrorResponse(401, "Failed to refresh token"), s, call)
        else if json.None? then
          Outcome(FaultResponse(500, "Error refreshing token: ", NotJson), s, call)
        else
          match TokenCookies(json.value, false)
          case Err(f) =>
            Outcome(FaultResponse(500, "Error refreshing token: ", f), s, call)
          case Ok(g) =>
            var resp := JsonResponse(200, map["success" := JBool(true)]).(cookies := g.cookies);
            Outcome(resp, WithDecodedUser(s, dec, g.access), call)
  }

  // ---------------------------------------------------------------------
  // properties across calls

  /** The state login stores is the state the callback accepts: a callback
      that echoes it back passes the CSRF gate. */
  lemma LoginThenCallbackAccepted(cfg: Config, req: Request, s: Session,
                                  state: string, back: Request)
    requires state != ""
    requires back.Arg("state") == Some(state)
    ensures StateAccepted(back, Login(cfg, req, s, state).session)
    ensures Some(Login(cfg, req, s, state).response.location.value.query[4].1) == back.Arg("state")
  {
  }

  /** The state is not single-use: whatever the callback did, replaying the
      same callback request meets the gate again, so it reaches the token
      endpoint a second time with the same code. */
  lemma CallbackReplayable(cfg: Config, req: Request, s: Session,
                           r1: ProviderReply, r2: ProviderReply, dec: SegmentDecoder)
    requires StateAccepted(req, s) && Present(req.Arg("code"))
    ensures var o1 := Callback(cfg, req, s, r1, dec);
            StateAccepted(req, o1.session)
            && Callback(cfg, req, o1.session, r2, dec).call == o1.call
  {
  }

  /** A successful exchange whose access token does not decode still logs
      the browser in (token cookies written, redirect issued) while the
      session keeps no user. */
  lemma CallbackSwallowsDecodeFailure(cfg: Config, req: Request, s: Session,
                                      reply: ProviderReply, dec: SegmentDecoder)
    requires StateAccepted(req, s) && Present(req.Arg("code"))
    requires reply.Replied? && reply.status == 200 && reply.json.Some? && WellFormedGrant(reply.json.value)
    requires DecodeClaims(dec, reply.json.value.fields["access_token"].s).Err?
    ensures var o := Callback(cfg, req, s, reply, dec);
            o.response.status == 302 && o.session == s
            && |o.response.cookies| == 3 && o.response.cookies[1].SetCookie?
            && o.response.cookies[1].name == "access_token"
            && o.response.cookies[1].value == reply.json.value.fields["access_token"].s
  {
  }
}

=== FILE: auth_tokens.dfy ===
/** The token-handling endpoints the frontend calls directly: verifying a
    token it already holds, the password grant, the decoded view of the
    access cookie, and handing the cookie's token back to scripts. */
module AuthTokens {
  import opened Wrappers
  import opened Text
  import opened JsonValue
  import opened Faults
  import opened Jwt
  import opened Tenant
  import opened Http
  import opened AuthCommon

  // ---------------------------------------------------------------------
  // verify-token

  /** `token_data.get('exp', 3600) - token_data.get('iat', 0)`: the
      lifetime verify-token gives its cookie; `None` when either claim is
      not a number, so the subtraction raises. */
  function ClaimedLifetime(claims: ClaimMap): (r: Option<int>)
    ensures r.Some? <==> AsPyInt(Get(claims, "exp", JInt(3600))).Some? && AsPyInt(Get(claims, "iat", JInt(0))).Some?
    ensures "exp" !in claims && "iat" !in claims ==> r == Some(3600)
    ensures "exp" in claims && "iat" in claims && claims["exp"].JInt? && claims["iat"].JInt?
            ==> r == Some(claims["exp"].i - claims["iat"].i)
    ensures "exp" in claims && "iat" !in claims && claims["exp"].JInt? ==> r == Some(claims["exp"].i)
    ensures "exp" !in claims && "iat" in claims && claims["iat"].JInt? ==> r == Some(3600 - claims["iat"].i)
  {
    match (AsPyInt(Get(claims, "exp", JInt(3600))), AsPyInt(Get(claims, "iat", JInt(0))))
    case (Some(exp), Some(iat)) => Some(exp - iat)
    case _ => None
  }

  /** The token a verify-token body carries, if any: a JSON object body
      with an `access_token` key (`not data` also refuses `{}`). */
  predicate CarriesToken(req: Request) {
    req.json.Some? && req.json.value != map[] && "access_token" in req.json.value
  }

  /** `/api/auth/verify-token`: the frontend posts a token it obtained
      itself. No call is made and the signature is not checked. A body
      without `access_token` gives 400; a token that is not a string, does
      not split into exactly three segments or does not decode gives 400.
      A decoded token writes the session's user at once; only then is the
      cookie lifetime computed, so a token whose `exp` or `iat` is not a
      number gives 400 with the user already written. On success the token
      becomes the access cookie, living `exp - iat` seconds. */
  function VerifyToken(cfg: Config, req: Request, s: Session, dec: SegmentDecoder): (o: Outcome)
    ensures o.call.None?
    ensures o.session.oauthState == s.oauthState && o.session.tenant == s.tenant
    ensures !CarriesToken(req) ==> o == Outcome(ErrorResponse(400, "No access token provided"), s, None)
    ensures o.response.status == 200 || o.response.status == 400
    ensures o.response.status == 400 ==> o.response.cookies == []
    // the user is written exactly when a three-segment string token decodes
    ensures o.session.user != s.user ==> && CarriesToken(req) && req.json.value["access_token"].JStr?
                                         && |Segments(req.json.value["access_token"].s)| == 3
                                         && DecodeClaims(dec, req.json.value["access_token"].s).Ok?
    ensures CarriesToken(req) && req.json.value["access_token"].JStr?
            && |Segments(req.json.value["access_token"].s)| != 3
            ==> o == Outcome(ErrorResponse(400, "Invalid token format"), s, None)
    // a decodable three-segment token whose lifetime can be computed is accepted
    ensures CarriesToken(req) && req.json.value["access_token"].JStr?
            && |Segments(req.json.value["access_token"].s)| == 3
            && DecodeClaims(dec, req.json.value["access_token"].s).Ok?
            && ClaimedLifetime(DecodeClaims(dec, req.json.value["access_token"].s).value).Some?
            ==> o.response.status == 200
    ensures CarriesToken(req) && req.json.value["access_token"].JStr?
            && |Segments(req.json.value["access_token"].s)| == 3
            && DecodeClaims(dec, req.json.value["access_token"].s).Ok?
            ==> o.session.user == Some(UserFromClaims(DecodeClaims(dec, req.json.value["access_token"].s).value))
    ensures o.response.status == 200 ==>
              && CarriesToken(req) && req.json.value["access_token"].JStr?
              && |Segments(req.json.value["access_token"].s)| == 3
              && DecodeClaims(dec, req.json.value["access_token"].s).Ok?
              && var claims := DecodeClaims(dec, req.json.value["access_token"].s).value;
                 && ClaimedLifetime(claims).Some?
                 && o.response.cookies == [AccessCookie(req.json.value["access_token"].s,
                                                        ClaimedLifetime(claims).value, cfg.secureCookies)]
                 && o.response.body == JsonBody(map["success" := JBool(true),
                                                    "user" := UserJson(UserFromClaims(claims))])
  {
    if !CarriesToken(req) then
      Outcome(ErrorResponse(400, "No access token provided"), s, None)
    else
      match req.json.value["access_token"]
      case JStr(token) => (
        if |Segments(token)| != 3 then
          Outcome(ErrorResponse(400, "Invalid token format"), s, None)
        else
          match DecodeClaims(dec, token)
          case Err(f) => Outcome(FaultResponse(400, "Error parsing token: ", f), s, None)
          case Ok(claims) =>
            var user := UserFromClaims(claims);
            var s' := s.(user := Some(user));
            match ClaimedLifetime(claims)
            case None => Outcome(FaultResponse(400, "Error parsing token: ", TypeError), s', None)
            case Some(age) =>
              var resp := JsonResponse(200, map["success" := JBool(true), "user" := UserJson(user)]);
              Outcome(resp.(cookies := [AccessCookie(token, age, cfg.secureCookies)]), s', None))
      case _ => Outcome(FaultResponse(400, "Error parsing token: ", TypeError), s, None)
  }

  // ---------------------------------------------------------------------
  // direct-token

  /** A direct-token body names both credentials. */
  predicate CarriesCredentials(req: Request) {
    req.json.Some? && req.json.value != map[]
    && "username" in req.json.value && "password" in req.json.value
  }

  /** The error message of a refused password grant: the provider's
      `error_description`, or "Invalid credentials" when it gives none.
      Reading it raises when the reply is not a JSON object. */
  function RefusalMessage(json: Option<Json>): (r: Result<string, Fault>)
    ensures r.Ok? <==> json.Some? && json.value.JObj?
    ensures r.Ok? && "error_description" !in json.value.fields ==> r.value == "Invalid credentials"
    ensures r.Ok? && "error_description" in json.value.fields && json.value.fields["error_description"].JStr?
            ==> r.value == json.value.fields["error_description"].s
    // a scalar description is rendered as Python's `str()` renders it
    ensures r.Ok? && "error_description" in json.value.fields ==>
              var d := json.value.fields["error_description"];
              && (d.JNull? ==> r.value == "None")
              && (d.JBool? ==> r.value == (if d.b then "True" else "False"))
              && (d.JInt? ==> r.value == IntToString(d.i))
  {
    match json
    case None => Err(NotJson)
    case Some(JObj(m)) => Ok(PyStr(Get(m, "error_description", JStr("Invalid credentials"))))
    case Some(_) => Err(TypeError)
  }

  /** The cookies direct-token writes: the access cookie living
      `expires_in` seconds (3600 when the reply omits it), and the refresh
      cookie, living twice as long, only when the reply has a
      `refresh_token`. Neither is marked `secure`. */
  function DirectCookies(tokens: map<string, Json>, access: string): (r: Result<seq<CookieWrite>, Fault>)
    ensures r.Ok? ==> AsPyInt(Get(tokens, "expires_in", JInt(3600))).Some?
    ensures r.Ok? ==> var ttl := AsPyInt(Get(tokens, "expires_in", JInt(3600))).value;
                      && |r.value| >= 1 && r.value[0] == AccessCookie(access, ttl, false)
                      && (|r.value| == 2 <==> "refresh_token" in tokens)
                      && ("refresh_token" in tokens
                          ==> tokens["refresh_token"].JStr?
                              && r.value[1] == RefreshCookie(tokens["refresh_token"].s, 2 * ttl, false))
    ensures r.Err? <==> AsPyInt(Get(tokens, "expires_in", JInt(3600))).None?
                        || ("refresh_token" in tokens && !tokens["refresh_token"].JStr?)
  {
    var ttl :- AsMaxAge(Get(tokens, "expires_in", JInt(3600)));
    if "refresh_token" in tokens then
      var refresh :- AsString(tokens["refresh_token"]);
      Ok([AccessCookie(access, ttl, false), RefreshCookie(refresh, ttl * 2, false)])
    else
      Ok([AccessCookie(access, ttl, false)])
  }

  /** The body of a successful direct-token call. */
  function DirectBody(tokens: map<string, Json>, access: string, user: User): map<string, Json> {
    map["success" := JBool(true),
        "user" := UserJson(user),
        "access_token" := JStr(access),
        "refresh_token" := Get(tokens, "refresh_token", JNull),
        "expires_in" := Get(tokens, "expires_in", JNull),
        "token_type" := Get(tokens, "token_type", JNull)]
  }

  /** `/api/auth/direct-token`: the resource-owner password grant. Missing
      credentials give 400 with no call. A refused grant gives 401 with the
      provider's description; an unreadable refusal, a raised error or a
      reply without `access_token` gives 500. A returned token must be a
      string of three segments that decodes (400 for the wrong number of
      segments, 500 otherwise); it then writes the session's user, and a
      cookie that cannot be written after that gives 500 with the user
      already written. */
  function DirectToken(cfg: Config, req: Request, s: Session, reply: ProviderReply,
                       dec: SegmentDecoder): (o: Outcome)
    ensures !CarriesCredentials(req)
            ==> o == Outcome(ErrorResponse(400, "Username and password are required"), s, None)
    ensures o.call.Some? <==> CarriesCredentials(req)
    ensures o.call.Some? ==> o.call.value == PasswordGrant(cfg, req.json.value["username"], req.json.value["password"])
    ensures o.session.oauthState == s.oauthState && o.session.tenant == s.tenant
    ensures o.call.Some? && reply.Replied? && reply.status != 200
            ==> && o.session == s
                && (RefusalMessage(reply.json).Ok?
                    ==> o.response == ErrorResponse(401, "Authentication failed: " + RefusalMessage(reply.json).value))
                && (RefusalMessage(reply.json).Err? ==> o.response.status == 500)
    ensures o.response.cookies != [] ==> o.response.status == 200
    // a transport failure, a 200 reply that is not JSON, or one whose
    // `access_token` is missing or not a string raises: 500, session unchanged
    ensures CarriesCredentials(req) && reply.TransportFailed?
            ==> o.response == FaultResponse(500, "Error getting direct token: ", Transport(reply.message))
                && o.session == s
    ensures CarriesCredentials(req) && reply.Replied? && reply.status == 200
            && !(reply.json.Some? && reply.json.value.JObj?
                 && "access_token" in reply.json.value.fields && reply.json.value.fields["access_token"].JStr?)
            ==> o.response.status == 500 && o.session == s
    // a three-segment token that does not decode gives 500 and no user; one
    // whose cookies cannot be written gives 500 with the user written
    ensures CarriesCredentials(req) && reply.Replied? && reply.status == 200
            && reply.json.Some? && reply.json.value.JObj?
            && "access_token" in reply.json.value.fields && reply.json.value.fields["access_token"].JStr?
            && |Segments(reply.json.value.fields["access_token"].s)| == 3
            && DecodeClaims(dec, reply.json.value.fields["access_token"].s).Err?
            ==> o.response == FaultResponse(500, "Error processing token: ",
                                            DecodeClaims(dec, reply.json.value.fields["access_token"].s).error)
                && o.session == s
    ensures CarriesCredentials(req) && reply.Replied? && reply.status == 200
            && reply.json.Some? && reply.json.value.JObj?
            && "access_token" in reply.json.value.fields && reply.json.value.fields["access_token"].JStr?
            && |Segments(reply.json.value.fields["access_token"].s)| == 3
            && DecodeClaims(dec, reply.json.value.fields["access_token"].s).Ok?
            && DirectCookies(reply.json.value.fields, reply.json.value.fields["access_token"].s).Err?
            ==> o.response.status == 500
                && o.session == s.(user := Some(UserFromClaims(DecodeClaims(dec, reply.json.value.fields["access_token"].s).value)))
    ensures CarriesCredentials(req) && reply.Replied? && reply.status == 200
            && reply.json.Some? && reply.json.value.JObj?
            && "access_token" in reply.json.value.fields && reply.json.value.fields["access_token"].JStr?
            && |Segments(reply.json.value.fields["access_token"].s)| != 3
            ==> o.response == ErrorResponse(400, "Invalid token format") && o.session == s
    // a granted, decodable three-segment token whose cookies can be written is handed over
    ensures CarriesCredentials(req) && reply.Replied? && reply.status == 200
            && reply.json.Some? && reply.json.value.JObj?
            && "access_token" in reply.json.value.fields && reply.json.value.fields["access_token"].JStr?
            && |Segments(reply.json.value.fields["access_token"].s)| == 3
            && DecodeClaims(dec, reply.json.value.fields["access_token"].s).Ok?
            && DirectCookies(reply.json.value.fields, reply.json.value.fields["access_token"].s).Ok?
            ==> o.response.status == 200
    ensures o.response.status == 200 ==>
              && o.call.Some? && reply.Replied? && reply.status == 200
              && reply.json.Some? && reply.json.value.JObj?
              && var tokens := reply.json.value.fields;
                 && "access_token" in tokens && tokens["access_token"].JStr?
                 && var access := tokens["access_token"].s;
                    && |Segments(access)| == 3 && DecodeClaims(dec, access).Ok?
                    && var user := UserFromClaims(DecodeClaims(dec, access).value);
                       && o.session == s.(user := Some(user))
                       && o.response.body == JsonBody(DirectBody(tokens, access, user))
                       && DirectCookies(tokens, access) == Ok(o.response.cookies)
  {
    if !CarriesCredentials(req) then
      Outcome(ErrorResponse(400, "Username and password are required"), s, None)
    else
      var call := Some(PasswordGrant(cfg, req.json.value["username"], req.json.value["password"]));
      match reply
      case TransportFailed(m) =>
        Outcome(FaultResponse(500, "Error getting direct token: ", Transport(m)), s, call)
      case Replied(status, _, json) =>
        if status != 200 then
          match RefusalMessage(json)
          case Ok(message) => Outcome(ErrorResponse(401, "Authentication failed: " + message), s, call)
          case Err(f) => Outcome(FaultResponse(500, "Error getting direct token: ", f), s, call)
        else if json.None? then
          Outcome(FaultResponse(500, "Error getting direct token: ", NotJson), s, call)
        else
          match Field(json.value, "access_token")
          case Err(f) => Outcome(FaultResponse(500, "Error getting direct token: ", f), s, call)
          case Ok(JStr(access)) => (
            var tokens := json.value.fields;
            if |Segments(access)| != 3 then
              Outcome(ErrorResponse(400, "Invalid token format"), s, call)
            else
              match DecodeClaims(dec, access)
              case Err(f) => Outcome(FaultResponse(500, "Error processing token: ", f), s, call)
              case Ok(claims) =>
                var user := UserFromClaims(claims);
                var s' := s.(user := Some(user));
                match DirectCookies(tokens, access)
                case Err(f) => Outcome(FaultResponse(500, "Error processing token: ", f), s', call)
                case Ok(cookies) =>
                  Outcome(JsonResponse(200, DirectBody(tokens, access, user)).(cookies := cookies), s', call))
          case Ok(_) => Outcome(FaultResponse(500, "Error processing token: ", TypeError), s, call)
  }

  // ---------------------------------------------------------------------
  // token-details

  /** `datetime.fromtimestamp(v).strftime('%Y-%m-%d %H:%M:%S')`, passed
      in: `None` when it raises (a value that is not a timestamp). */
  type TimeFormatter = Json -> Option<string>

  /** `if claim in payload: payload[key] = format(payload[claim])`. A
      payload the `in` test cannot take, or one that passes it but cannot
      be indexed by a string, raises. On an object, every claim is kept
      and only `key` is added or replaced. */
  function Annotate(payload: Json, claim: string, key: string, fmt: TimeFormatter): (r: Result<Json, Fault>)
    ensures payload.JObj? && claim !in payload.fields ==> r == Ok(payload)
    ensures payload.JObj? && claim in payload.fields
            ==> (r.Ok? <==> fmt(payload.fields[claim]).Some?)
    ensures r.Ok? && payload.JObj? ==>
              && r.value.JObj?
              && (claim in payload.fields ==> r.value.fields == payload.fields[key := JStr(fmt(payload.fields[claim]).value)])
    ensures r.Ok? && payload.JObj? ==>
              forall k :: k in payload.fields && k != key ==> k in r.value.fields && r.value.fields[k] == payload.fields[k]
    // a list or string is shown unchanged unless `in` finds the claim, which
    // it then cannot index by name; a scalar cannot take `in` at all
    ensures !payload.JObj? ==> (r.Ok? <==> PyIn(claim, payload) == Some(false))
    ensures !payload.JObj? && r.Ok? ==> r == Ok(payload)
    ensures r.Err? ==> r == Err(TypeError)
  {
    match PyIn(claim, payload)
    case None => Err(TypeError)
    case Some(false) => Ok(payload)
    case Some(true) =>
      match payload
      case JObj(m) => (
        match fmt(m[claim])
        case Some(text) => Ok(JObj(m[key := JStr(text)]))
        case None => Err(TypeError))
      case _ => Err(TypeError)
  }

  /** The decoded header and the payload with its readable `exp` and `iat`
      added, from a three-segment token. The payload may decode to any JSON
      value; only an object gains the readable fields. */
  function Details(parts: seq<string>, dec: SegmentDecoder, fmt: TimeFormatter): (r: Result<(Json, Json), Fault>)
    requires |parts| == 3
    ensures r.Ok? ==> DecodeSegment(dec, parts[0]) == Ok(r.value.0) && DecodeSegment(dec, parts[1]).Ok?
    ensures r.Ok? && DecodeSegment(dec, parts[1]).value.JObj?
            ==> r.value.1.JObj?
                && forall k :: k in DecodeSegment(dec, parts[1]).value.fields
                               && k != "expiration_formatted" && k != "issued_at_formatted"
                               ==> k in r.value.1.fields
                                   && r.value.1.fields[k] == DecodeSegment(dec, parts[1]).value.fields[k]
    // a present `exp` or `iat` gains its readable companion
    ensures r.Ok? && DecodeSegment(dec, parts[1]).value.JObj? && "exp" in DecodeSegment(dec, parts[1]).value.fields
            ==> && fmt(DecodeSegment(dec, parts[1]).value.fields["exp"]).Some?
                && "expiration_formatted" in r.value.1.fields
                && r.value.1.fields["expiration_formatted"]
                   == JStr(fmt(DecodeSegment(dec, parts[1]).value.fields["exp"]).value)
    ensures r.Ok? && DecodeSegment(dec, parts[1]).value.JObj? && "iat" in DecodeSegment(dec, parts[1]).value.fields
            ==> && fmt(DecodeSegment(dec, parts[1]).value.fields["iat"]).Some?
                && "issued_at_formatted" in r.value.1.fields
                && r.value.1.fields["issued_at_formatted"]
                   == JStr(fmt(DecodeSegment(dec, parts[1]).value.fields["iat"]).value)
    // an object payload whose present timestamps all format is always shown
    ensures DecodeSegment(dec, parts[0]).Ok? && DecodeSegment(dec, parts[1]).Ok?
            && DecodeSegment(dec, parts[1]).value.JObj?
            && ("exp" in DecodeSegment(dec, parts[1]).value.fields
                ==> fmt(DecodeSegment(dec, parts[1]).value.fields["exp"]).Some?)
            && ("iat" in DecodeSegment(dec, parts[1]).value.fields
                ==> fmt(DecodeSegment(dec, parts[1]).value.fields["iat"]).Some?)
            ==> r.Ok?
    // a payload that is not an object is shown as decoded, and only when
    // neither claim name is `in` it
    ensures r.Ok? && !DecodeSegment(dec, parts[1]).value.JObj?
            ==> r.value.1 == DecodeSegment(dec, parts[1]).value
    ensures DecodeSegment(dec, parts[0]).Ok? && DecodeSegment(dec, parts[1]).Ok?
            && !DecodeSegment(dec, parts[1]).value.JObj?
            ==> (r.Ok? <==> PyIn("exp", DecodeSegment(dec, parts[1]).value) == Some(false)
                            && PyIn("iat", DecodeSegment(dec, parts[1]).value) == Some(false))
  {
    var header :- DecodeSegment(dec, parts[0]);
    var payload :- DecodeSegment(dec, parts[1]);
    var withExp :- Annotate(payload, "exp", "expiration_formatted", fmt);
    var withIat :- Annotate(withExp, "iat", "issued_at_formatted", fmt);
    Ok((header, withIat))
  }

  /** `/api/auth/token-details`: the access cookie decoded for display.
      Never touches the session or makes a call. No cookie gives 200 with
      `authenticated: false`; a token that is not three segments gives 400;
      any failure decoding or formatting gives 200 with `authenticated:
      false` and the error. Success shows the first 20 characters of the
      token, the header, the annotated payload and the first 10 characters
      of the signature. */
  function TokenDetails(req: Request, dec: SegmentDecoder, fmt: TimeFormatter): (r: Response)
    ensures r.cookies == [] && r.location.None?
    ensures r.status == 200 || r.status == 400
    ensures !Present(req.Cookie("access_token"))
            ==> r == JsonResponse(200, map["authenticated" := JBool(false), "error" := JStr("No token available")])
    ensures r.status == 400 <==> Present(req.Cookie("access_token")) && |Segments(req.Cookie("access_token").value)| != 3
    ensures Present(req.Cookie("access_token")) && |Segments(req.Cookie("access_token").value)| != 3
            ==> r == ErrorResponse(400, "Invalid token format")
    ensures Present(req.Cookie("access_token")) && |Segments(req.Cookie("access_token").value)| == 3
            ==> var token := req.Cookie("access_token").value;
                var parts := Segments(token);
                && (Details(parts, dec, fmt).Ok?
                    ==> r == JsonResponse(200, map[
                              "authenticated" := JBool(true),
                              "token_preview" := JStr(Take(token, 20) + "..."),
                              "header" := Details(parts, dec, fmt).value.0,
                              "payload" := Details(parts, dec, fmt).value.1,
                              "signature" := JStr(Take(parts[2], 10) + "...")]))
                && (Details(parts, dec, fmt).Err?
                    ==> r == JsonResponse(200, map["authenticated" := JBool(false),
                                                   "error" := JStr(Describe(Details(parts, dec, fmt).error))]))
    ensures r.status == 200 && r.body.JsonBody? && "authenticated" in r.body.fields
            && r.body.fields["authenticated"] == JBool(true) ==>
              && Present(req.Cookie("access_token"))
              && var token := req.Cookie("access_token").value;
                 var parts := Segments(token);
                 && |parts| == 3
                 && Details(parts, dec, fmt).Ok?
                 && r.body == JsonBody(map[
                      "authenticated" := JBool(true),
                      "token_preview" := JStr(Take(token, 20) + "..."),
                      "header" := Details(parts, dec, fmt).value.0,
                      "payload" := Details(parts, dec, fmt).value.1,
                      "signature" := JStr(Take(parts[2], 10) + "...")])
  {
    var access := req.Cookie("access_token");
    if !Present(access) then
      JsonResponse(200, map["authenticated" := JBool(false), "error" := JStr("No token available")])
    else
      var parts := Segments(access.value);
      if |parts| != 3 then ErrorResponse(400, "Invalid token format")
      else
        match Details(parts, dec, fmt)
        case Err(f) => JsonResponse(200, map["authenticated" := JBool(false), "error" := JStr(Describe(f))])
        case Ok((header, payload)) =>
          JsonResponse(200, map[
            "authenticated" := JBool(true),
            "token_preview" := JStr(Take(access.value, 20) + "..."),
            "header" := header,
            "payload" := payload,
            "signature" := JStr(Take(parts[2], 10) + "...")])
  }

  // ---------------------------------------------------------------------
  // retrieve-token

  /** The failure bodies of retrieve-token. */
  function RetrieveFailure(status: int, message: string): Response {
    JsonResponse(status, map["success" := JBool(false), "error" := JStr(message), "authenticated" := JBool(false)])
  }

  /** The access token has an `exp` claim that lies strictly before `now`. */
  predicate ExpiredAt(claims: ClaimMap, now: Time) {
    "exp" in claims && AsPyInt(claims["exp"]).Some? && (AsPyInt(claims["exp"]).value as real) < now
  }

  /** The lifetime retrieve-token reports for a valid access token:
      `exp - int(now)` when the token carries `exp`, else 3600. */
  function RemainingLifetime(claims: ClaimMap, now: Time): int
    requires "exp" in claims ==> AsPyInt(claims["exp"]).Some?
  {
    if "exp" in claims then AsPyInt(claims["exp"]).value - now.Floor else 3600
  }

  /** An unexpired token never reports a negative remaining lifetime. */
  lemma RemainingLifetimeNonNegative(claims: ClaimMap, now: Time)
    requires "exp" in claims ==> AsPyInt(claims["exp"]).Some?
    requires !ExpiredAt(claims, now)
    ensures RemainingLifetime(claims, now) >= 0
  {
  }

  /** The path retrieve-token takes when the browser holds no access token
      but a refresh token: the refresh grant, then the new token's user in
      the session and the token in the body and the cookies. */
  function RetrieveByRefresh(cfg: Config, s: Session, refresh: string, reply: ProviderReply,
                             dec: SegmentDecoder): (o: Outcome)
    ensures o.call == Some(RefreshGrant(cfg, refresh))
    ensures o.session.oauthState == s.oauthState && o.session.tenant == s.tenant
    ensures reply.Replied? && reply.status != 200 ==> o.response == RetrieveFailure(401, "Failed to refresh token") && o.session == s
    ensures o.response.status == 200 || o.response.status == 401 || o.response.status == 500
    ensures o.response.status == 200 <==>
              reply.Replied? && reply.status == 200 && reply.json.Some? && WellFormedGrant(reply.json.value)
              && DecodeClaims(dec, reply.json.value.fields["access_token"].s).Ok?
    ensures o.response.status == 200 ==>
              && var tokens := reply.json.value;
                 var user := UserFromClaims(DecodeClaims(dec, tokens.fields["access_token"].s).value);
                 && o.session == s.(user := Some(user))
                 && o.response.cookies == TokenCookies(tokens, cfg.secureCookies).value.cookies
                 && o.response.body == JsonBody(map[
                      "success" := JBool(true),
                      "access_token" := tokens.fields["access_token"],
                      "id_token" := Get(tokens.fields, "id_token", JNull),
                      "expires_in" := tokens.fields["expires_in"],
                      "authenticated" := JBool(true),
                      "user" := UserJson(user)])
    ensures o.response.status != 200 ==> o.response.cookies == []
  {
    var call := Some(RefreshGrant(cfg, refresh));
    match reply
    case TransportFailed(m) => Outcome(RetrieveFailure(500, m), s, call)
    case Replied(status, _, json) =>
      if status != 200 then Outcome(RetrieveFailure(401, "Failed to refresh token"), s, call)
      else if json.None? then Outcome(RetrieveFailure(500, Describe(NotJson)), s, call)
      else
        var tokens := json.value;
        match Field(tokens, "access_token")
        case Err(f) => Outcome(RetrieveFailure(500, Describe(f)), s, call)
        case Ok(JStr(access)) => (
          match DecodeClaims(dec, access)
          case Err(f) => Outcome(RetrieveFailure(500, Describe(f)), s, call)
          case Ok(claims) =>
            var user := UserFromClaims(claims);
            var s' := s.(user := Some(user));
            match TokenCookies(tokens, cfg.secureCookies)
            case Err(f) => Outcome(RetrieveFailure(500, Describe(f)), s', call)
            case Ok(g) =>
              var body := map[
                "success" := JBool(true),
                "access_token" := JStr(access),
                "id_token" := Get(tokens.fields, "id_token", JNull),
                "expires_in" := tokens.fields["expires_in"],
                "authenticated" := JBool(true),
                "user" := UserJson(user)];
              Outcome(JsonResponse(200, body).(cookies := g.cookies), s', call))
        case Ok(_) => Outcome(RetrieveFailure(500, Describe(TypeError)), s, call)
  }

  /** `/api/auth/retrieve-token`: hands the cookie's access token to
      scripts. Without an access cookie it falls back to the refresh grant
      when a refresh cookie exists, else 401. With one, no call is made: a
      token that does not decode or whose `exp` is not a number gives 500;
      an expired token redirects to `/api/auth/refresh` when a refresh
      cookie exists, else 401; a valid token writes the session's user and
      is returned with its remaining lifetime. */
  function RetrieveToken(cfg: Config, req: Request, s: Session, reply: ProviderReply,
                         dec: SegmentDecoder, now: Time): (o: Outcome)
    ensures o.call.Some? <==> !Present(req.Cookie("access_token")) && Present(req.Cookie("refresh_token"))
    ensures o.session.oauthState == s.oauthState && o.session.tenant == s.tenant
    ensures !Present(req.Cookie("access_token")) && !Present(req.Cookie("refresh_token"))
            ==> o == Outcome(RetrieveFailure(401, "No token available"), s, None)
    ensures !Present(req.Cookie("access_token")) && Present(req.Cookie("refresh_token"))
            ==> o == RetrieveByRefresh(cfg, s, req.Cookie("refresh_token").value, reply, dec)
    ensures Present(req.Cookie("access_token")) ==> o.response.cookies == []
    // an expired token is never handed out: refresh when possible, else 401
    ensures Present(req.Cookie("access_token")) && DecodeClaims(dec, req.Cookie("access_token").value).Ok?
            && ExpiredAt(DecodeClaims(dec, req.Cookie("access_token").value).value, now)
            ==> && o.session == s
                && (Present(req.Cookie("refresh_token"))
                    ==> o.response == Redirect(Location("/api/auth/refresh", [])))
                && (!Present(req.Cookie("refresh_token"))
                    ==> o.response == RetrieveFailure(401, "Token is expired"))
    ensures Present(req.Cookie("access_token")) && DecodeClaims(dec, req.Cookie("access_token").value).Err?
            ==> o == Outcome(RetrieveFailure(500, Describe(DecodeClaims(dec, req.Cookie("access_token").value).error)), s, None)
    ensures Present(req.Cookie("access_token")) && DecodeClaims(dec, req.Cookie("access_token").value).Ok?
            ==> var claims := DecodeClaims(dec, req.Cookie("access_token").value).value;
                && ("exp" in claims && AsPyInt(claims["exp"]).None?
                    ==> o == Outcome(RetrieveFailure(500, Describe(TypeError)), s, None))
                // a valid token is handed out
                && (("exp" in claims ==> AsPyInt(claims["exp"]).Some?) && !ExpiredAt(claims, now)
                    ==> o.response.status == 200)
    ensures Present(req.Cookie("access_token")) && o.response.status == 200 ==>
              && var token := req.Cookie("access_token").value;
                 DecodeClaims(dec, token).Ok?
                 && var claims := DecodeClaims(dec, token).value;
                    && ("exp" in claims ==> AsPyInt(claims["exp"]).Some?)
                    && !ExpiredAt(claims, now)
                    && o.session == s.(user := Some(UserFromClaims(claims)))
                    && o.response.body == JsonBody(map[
                         "success" := JBool(true),
                         "access_token" := JStr(token),
                         "expires_in" := JInt(RemainingLifetime(claims, now)),
                         "authenticated" := JBool(true),
                         "user" := UserJson(UserFromClaims(claims))])
  {
    var access := req.Cookie("access_token");
    var refresh := req.Cookie("refresh_token");
    if !Present(access) then
      if Present(refresh) then RetrieveByRefresh(cfg, s, refresh.value, reply, dec)
      else Outcome(RetrieveFailure(401, "No token available"), s, None)
    else
      match DecodeClaims(dec, access.value)
      case Err(f) => Outcome(RetrieveFailure(500, Describe(f)), s, None)
      case Ok(claims) =>
        if "exp" in claims && AsPyInt(claims["exp"]).None? then
          Outcome(RetrieveFailure(500, Describe(TypeError)), s, None)
        else if ExpiredAt(claims, now) then
          if Present(refresh) then Outcome(Redirect(Location("/api/auth/refresh", [])), s, None)
          else Outcome(RetrieveFailure(401, "Token is expired"), s, None)
        else
          var user := UserFromClaims(claims);
          var body := map[
            "success" := JBool(true),
            "access_token" := JStr(access.value),
            "expires_in" := JInt(RemainingLifetime(claims, now)),
            "authenticated" := JBool(true),
            "user" := UserJson(user)];
          Outcome(JsonResponse(200, body), s.(user := Some(user)), None)
  }
}

=== FILE: auth_user.dfy ===
/** The two handlers around the session's user and tenant: reading the
    current user out of the access-token cookie, and choosing a tenant. */
module AuthUser {
  import opened Wrappers
  import opened JsonValue
  import opened Faults
  import opened Jwt
  import opened Tenant
  import opened Http
  import opened AuthCommon

  /** The tenant get_user_info reports: the token's tenant claim by the
      usual precedence, falling back to the session's tenant and only then
      to "Default". */
  function ReportedTenant(claims: ClaimMap, s: Session): Json {
    Resolve(claims, s.tenant.GetOr(DefaultTenant))
  }

  /** `/api/auth/user`. Always 200, never a call, never a cookie, never a
      change to the session's user. Without a non-empty access cookie, or
      with one that does not decode, it reports `authenticated: false` (the
      latter with the error text) and leaves the session alone. Otherwise it
      reports the token's user and stores the reported tenant in the
      session: a tenant claim in the token overrides a tenant chosen
      earlier. */
  function UserInfo(req: Request, s: Session, dec: SegmentDecoder): (o: Outcome)
    ensures o.call.None? && o.response.status == 200 && o.response.cookies == []
    ensures o.session.user == s.user && o.session.oauthState == s.oauthState
    ensures !Present(req.Cookie("access_token"))
            ==> o.response.body == JsonBody(map["authenticated" := JBool(false)]) && o.session == s
    ensures Present(req.Cookie("access_token")) && DecodeClaims(dec, req.Cookie("access_token").value).Err?
            ==> && o.session == s
                && o.response.body == JsonBody(map[
                     "authenticated" := JBool(false),
                     "error" := JStr(Describe(DecodeClaims(dec, req.Cookie("access_token").value).error))])
    ensures Present(req.Cookie("access_token")) && DecodeClaims(dec, req.Cookie("access_token").value).Ok?
            ==> var claims := DecodeClaims(dec, req.Cookie("access_token").value).value;
                var tenant := ByPrecedence(claims, s.tenant.GetOr(DefaultTenant));
                && o.session == s.(tenant := Some(tenant))
                && o.response.body == JsonBody(map[
                     "authenticated" := JBool(true),
                     "user" := UserJson(User(Get(claims, "preferred_username", JStr("unknown_user")), tenant))])
  {
    var access := req.Cookie("access_token");
    if !Present(access) then
      Outcome(JsonResponse(200, map["authenticated" := JBool(false)]), s, None)
    else
      match DecodeClaims(dec, access.value)
      case Err(f) =>
        Outcome(JsonResponse(200, map["authenticated" := JBool(false), "error" := JStr(Describe(f))]), s, None)
      case Ok(claims) =>
        var username := Get(claims, "preferred_username", JStr("unknown_user"));
        var tenant := ReportedTenant(claims, s);
        Outcome(JsonResponse(200, map["authenticated" := JBool(true), "user" := UserJson(User(username, tenant))]),
                s.(tenant := Some(tenant)), None)
  }

  /** `/api/auth/tenant`: stores the body's `tenant` when it is truthy (any
      JSON value, not only a string), else 400 and no change. A request
      without a JSON object body makes `data.get` raise: Flask's own 500. */
  function SetTenant(req: Request, s: Session): (o: Outcome)
    ensures o.call.None? && o.response.cookies == []
    ensures req.json.None? ==> o == Outcome(InternalServerError, s, None)
    ensures req.json.Some? && !Truthy(Get(req.json.value, "tenant", JNull))
            ==> o == Outcome(ErrorResponse(400, "No tenant provided"), s, None)
    ensures o.response.status == 200
            <==> req.json.Some? && "tenant" in req.json.value && Truthy(req.json.value["tenant"])
    ensures o.response.status == 200
            ==> && o.session == s.(tenant := Some(req.json.value["tenant"]))
                && o.response.body == JsonBody(map["success" := JBool(true), "tenant" := req.json.value["tenant"]])
    ensures o.response.status != 200 ==> o.session == s
  {
    match req.json
    case None => Outcome(InternalServerError, s, None)
    case Some(data) =>
      var tenant := Get(data, "tenant", JNull);
      if !Truthy(tenant) then Outcome(ErrorResponse(400, "No tenant provided"), s, None)
      else Outcome(JsonResponse(200, map["success" := JBool(true), "tenant" := tenant]), s.(tenant := Some(tenant)), None)
  }

  /** A tenant chosen through `/api/auth/tenant` is what `/api/auth/user`
      reports as long as the token carries none of the five tenant claims;
      a token that carries one overrides the choice, and the session then
      holds the token's tenant. */
  lemma ChosenTenantReportedUnlessTokenNamesOne(
    req: Request, s: Session, choice: Request, dec: SegmentDecoder)
    requires choice.json.Some? && "tenant" in choice.json.value && Truthy(choice.json.value["tenant"])
    requires Present(req.Cookie("access_token")) && DecodeClaims(dec, req.Cookie("access_token").value).Ok?
    ensures var chosen := SetTenant(choice, s).session;
            var claims := DecodeClaims(dec, req.Cookie("access_token").value).value;
            var after := UserInfo(req, chosen, dec).session;
            && (NoTenantClaim(claims) ==> after.tenant == Some(choice.json.value["tenant"]))
            && (!NoTenantClaim(claims) ==> after.tenant == Some(ByPrecedence(claims, DefaultTenant)))
  {
  }
}

=== FILE: browser.dfy ===
/** The browser's side of the cookie writes, as section 5.3 of RFC 6265
    stores them: a write with a positive Max-Age stores the value, a write
    with Max-Age zero or less (and so every `delete_cookie`) removes the
    cookie. Used to chain handlers: the cookies one response writes are the
    cookies the next request carries. */
module Browser {
  import opened Wrappers
  import opened JsonValue
  import opened Faults
  import opened Jwt
  import opened Http
  import opened AuthCommon
  import opened AuthFlow
  import opened AuthUser
  import opened AuthTokens
  import opened FlaskProxy

  type Jar = map<string, string>

  /** The cookie's value in the jar, if it has one. */
  function Lookup(jar: Jar, name: string): Option<string> {
    if name in jar then Some(jar[name]) else None
  }

  /** What one write leaves behind for its own name. */
  function Effect(w: CookieWrite): Option<string> {
    match w
    case SetCookie(_, value, maxAge, _, _, _) => if maxAge > 0 then Some(value) else None
    case DeleteCookie(_) => None
  }

  function ApplyCookie(jar: Jar, w: CookieWrite): Jar {
    match Effect(w)
    case Some(v) => jar[w.name := v]
    case None => jar - {w.name}
  }

  /** The jar after the response's `Set-Cookie` headers, in order. */
  function ApplyAll(jar: Jar, ws: seq<CookieWrite>): Jar
    decreases |ws|
  {
    if |ws| == 0 then jar else ApplyAll(ApplyCookie(jar, ws[0]), ws[1..])
  }

  /** The last write naming the cookie. */
  function LastWrite(ws: seq<CookieWrite>, name: string): Option<CookieWrite>
    decreases |ws|
  {
    if |ws| == 0 then None
    else
      match LastWrite(ws[1..], name)
      case Some(w) => Some(w)
      case None => if ws[0].name == name then Some(ws[0]) else None
  }

  /** Only the last write of a name decides it; a name no write mentions
      keeps what the jar held. */
  lemma {:induction false} ApplyAllLookup(jar: Jar, ws: seq<CookieWrite>, name: string)
    ensures Lookup(ApplyAll(jar, ws), name)
            == match LastWrite(ws, name)
               case None => Lookup(jar, name)
               case Some(w) => Effect(w)
    decreases |ws|
  {
    if |ws| > 0 {
      ApplyAllLookup(ApplyCookie(jar, ws[0]), ws[1..], name);
    }
  }

  /** The request a browser sends next, carrying the updated jar. */
  function Next(req: Request, ws: seq<CookieWrite>): Request {
    req.(cookies := ApplyAll(req.cookies, ws))
  }

  /** After logout the browser holds neither token and holds the
      `logged_out` marker, whatever it held before. */
  lemma LogoutClearsTokens(jar: Jar)
    ensures "access_token" !in ApplyAll(jar, LogoutCookies)
    ensures "refresh_token" !in ApplyAll(jar, LogoutCookies)
    ensures Lookup(ApplyAll(jar, LogoutCookies), "logged_out") == Some("true")
  {
  }

  /** Once the browser has followed a logout, the next request is signed
      out everywhere: the user endpoint reports `authenticated: false`, a
      refresh is refused with no call to the provider, retrieve-token has
      nothing to give, and the broker proxy refuses every non-preflight
      request. */
  lemma SignedOutAfterLogout(cfg: Config, req: Request, s: Session, now: Time,
                             dec: SegmentDecoder, reply: ProviderReply,
                             subpath: string, upstream: UpstreamReply)
    requires req.verb != "OPTIONS"
    ensures var after := Next(req, Logout(cfg, req, s, now).response.cookies);
            var s' := Logout(cfg, req, s, now).session;
            && UserInfo(after, s', dec).response.body == JsonBody(map["authenticated" := JBool(false)])
            && Refresh(cfg, after, s', reply, dec) == Outcome(ErrorResponse(401, "No refresh token available"), s', None)
            && RetrieveToken(cfg, after, s', reply, dec, now).response == RetrieveFailure(401, "No token available")
            && Proxy(cfg, NgsiLd, after, subpath, upstream).response == ErrorResponse(401, UnauthorizedMessage)
  {
  }

  /** The callback's three writes, with a positive lifetime, leave both
      tokens stored and the `logged_out` marker gone. */
  lemma {:induction false} CallbackCookiesStored(jar: Jar, access: string, refresh: string, ttl: int, secure: bool)
    requires ttl > 0
    ensures var after := ApplyAll(jar, [DeleteCookie("logged_out"), AccessCookie(access, ttl, secure),
                                        RefreshCookie(refresh, 2 * ttl, secure)]);
            Lookup(after, "access_token") == Some(access)
            && Lookup(after, "refresh_token") == Some(refresh)
            && "logged_out" !in after
  {
    var ws := [DeleteCookie("logged_out"), AccessCookie(access, ttl, secure), RefreshCookie(refresh, 2 * ttl, secure)];
    assert ws[1..][1..][1..] == [];
    assert |ws[2].name| != |"access_token"|;
    assert LastWrite(ws[1..][1..], "access_token").None?;
    assert LastWrite(ws, "access_token") == Some(ws[1]);
    assert LastWrite(ws[1..][1..], "refresh_token") == Some(ws[2]);
    assert LastWrite(ws[1..], "refresh_token") == Some(ws[2]);
    assert LastWrite(ws, "refresh_token") == Some(ws[2]);
    assert |ws[1].name| != |"logged_out"| && |ws[2].name| != |"logged_out"|;
    assert LastWrite(ws[1..][1..], "logged_out").None?;
    assert LastWrite(ws[1..], "logged_out").None?;
    assert LastWrite(ws, "logged_out") == Some(ws[0]);
    ApplyAllLookup(jar, ws, "access_token");
    ApplyAllLookup(jar, ws, "refresh_token");
    ApplyAllLookup(jar, ws, "logged_out");
  }

  /** After a successful callback whose grant lives a positive number of
      seconds, the browser holds the granted access and refresh tokens and
      no `logged_out` marker. */
  lemma {:induction false} SignedInAfterCallback(cfg: Config, req: Request, s: Session, reply: ProviderReply,
                                                 dec: SegmentDecoder)
    requires Callback(cfg, req, s, reply, dec).response.status == 302
    requires TokenCookies(reply.json.value, cfg.secureCookies).value.expiresIn > 0
    ensures var after := Next(req, Callback(cfg, req, s, reply, dec).response.cookies);
            && after.Cookie("access_token") == Some(TokenCookies(reply.json.value, cfg.secureCookies).value.access)
            && after.Cookie("refresh_token") == Some(reply.json.value.fields["refresh_token"].s)
            && after.Cookie("logged_out").None?
  {
    var g := TokenCookies(reply.json.value, cfg.secureCookies).value;
    var refresh := reply.json.value.fields["refresh_token"].s;
    var ws := Callback(cfg, req, s, reply, dec).response.cookies;
    assert ws == [DeleteCookie("logged_out"), AccessCookie(g.access, g.expiresIn, cfg.secureCookies),
                  RefreshCookie(refresh, 2 * g.expiresIn, cfg.secureCookies)];
    CallbackCookiesStored(req.cookies, g.access, refresh, g.expiresIn, cfg.secureCookies);
  }

  /** The next request after such a callback passes the broker proxy's
      cookie gate when the granted access token is non-empty. */
  lemma {:induction false} BrokerOpenAfterCallback(cfg: Config, req: Request, s: Session, reply: ProviderReply,
                                                   dec: SegmentDecoder, subpath: string, upstream: UpstreamReply)
    requires Callback(cfg, req, s, reply, dec).response.status == 302
    requires TokenCookies(reply.json.value, cfg.secureCookies).value.expiresIn > 0
    requires TokenCookies(reply.json.value, cfg.secureCookies).value.access != "" && req.verb != "OPTIONS"
    ensures Proxy(cfg, NgsiLd, Next(req, Callback(cfg, req, s, reply, dec).response.cookies), subpath, upstream).forward.Some?
  {
    SignedInAfterCallback(cfg, req, s, reply, dec);
  }
}

=== FILE: example_backend.dfy ===
/** The earlier Flask backend (static/____backend-auth-example.py): the same
    auth handlers and broker proxy with its settings written into the code
    instead of read from the environment. It is the model's handlers run
    under `DefaultConfig`, whose broker URL and `secureCookies == false`
    are that file's literals. */
module ExampleBackend {
  import opened Wrappers
  import opened Text
  import opened Http
  import opened AuthCommon
  import opened AuthFlow
  import opened AuthTokens
  import opened FlaskProxy
  import opened Jwt

  /** No write in the list sets a `secure` cookie. */
  predicate NeverSecure(ws: seq<CookieWrite>) {
    forall i :: 0 <= i < |ws| ==> ws[i].SetCookie? ==> !ws[i].secure
  }

  /** The callback of that backend marks neither token cookie `secure`. */
  lemma ExampleCallbackNeverSecure(req: Request, s: Session, reply: ProviderReply,
                                   dec: SegmentDecoder)
    ensures NeverSecure(Callback(DefaultConfig, req, s, reply, dec).response.cookies)
  {
  }

  /** Nor does its refresh handler. */
  lemma ExampleRefreshNeverSecure(req: Request, s: Session, reply: ProviderReply,
                                  dec: SegmentDecoder)
    ensures NeverSecure(Refresh(DefaultConfig, req, s, reply, dec).response.cookies)
  {
  }

  /** Nor does its logout, which clears both token cookies. */
  lemma ExampleLogoutNeverSecure(req: Request, s: Session, now: Time)
    ensures NeverSecure(Logout(DefaultConfig, req, s, now).response.cookies)
  {
  }

  /** Nor does its verify-token handler. */
  lemma ExampleVerifyTokenNeverSecure(req: Request, s: Session, dec: SegmentDecoder)
    ensures NeverSecure(VerifyToken(DefaultConfig, req, s, dec).response.cookies)
  {
  }

  /** Nor does its direct-token handler. */
  lemma ExampleDirectTokenNeverSecure(req: Request, s: Session, reply: ProviderReply, dec: SegmentDecoder)
    ensures NeverSecure(DirectToken(DefaultConfig, req, s, reply, dec).response.cookies)
  {
  }

  /** That backend's broker proxy always targets the hard-coded broker. */
  lemma ExampleBrokerTarget(subpath: string)
    ensures TargetUrl(DefaultConfig, NgsiLd, subpath)
            == "http://orion.sensorsreport.net:31026/ngsi-ld/v1/" + subpath
  {
  }
}

=== FILE: headers.dfy ===
/** Header lists as werkzeug's `Headers` keeps them: an ordered list of
    (name, value) pairs whose names compare case-insensitively. */
module Headers {
  import opened Wrappers
  import opened Text

  type HeaderList = seq<(string, string)>

  /** Header names are compared without regard to ASCII case. */
  predicate SameName(a: string, b: string) {
    Lower(a) == Lower(b)
  }

  /** `headers.get(name)`: the value of the first entry with that name. */
  function GetHeader(hs: HeaderList, name: string): (r: Option<string>)
    ensures r.None? <==> forall i :: 0 <= i < |hs| ==> !SameName(hs[i].0, name)
    ensures r.Some? ==> exists i :: 0 <= i < |hs| && SameName(hs[i].0, name) && hs[i].1 == r.value
    decreases |hs|
  {
    if |hs| == 0 then None
    else if SameName(hs[0].0, name) then Some(hs[0].1)
    else GetHeader(hs[1..], name)
  }

  /** The entries whose name differs from `name`, in order. */
  function Without(hs: HeaderList, name: string): (r: HeaderList)
    ensures forall i :: 0 <= i < |r| ==> !SameName(r[i].0, name)
    ensures |r| <= |hs|
    decreases |hs|
  {
    if |hs| == 0 then []
    else if SameName(hs[0].0, name) then Without(hs[1..], name)
    else [hs[0]] + Without(hs[1..], name)
  }

  /** `headers[name] = value` (werkzeug's `Headers.set`): the first entry
      with that name is replaced in place and later ones are dropped; with
      no such entry the pair is appended. */
  function SetHeader(hs: HeaderList, name: string, value: string): (r: HeaderList)
    decreases |hs|
  {
    if |hs| == 0 then [(name, value)]
    else if SameName(hs[0].0, name) then [(name, value)] + Without(hs[1..], name)
    else [hs[0]] + SetHeader(hs[1..], name, value)
  }

  /** Dropping the entries of one name leaves every other name's lookup
      alone. */
  lemma {:induction false} GetWithout(hs: HeaderList, name: string, other: string)
    ensures GetHeader(Without(hs, name), other)
            == if SameName(name, other) then None else GetHeader(hs, other)
    decreases |hs|
  {
    if |hs| > 0 {
      GetWithout(hs[1..], name, other);
    }
  }

  /** After `headers[name] = value` the name reads back as `value` under
      any spelling of its case, and every other name reads as before. */
  lemma {:induction false} GetAfterSet(hs: HeaderList, name: string, value: string, other: string)
    ensures GetHeader(SetHeader(hs, name, value), other)
            == if SameName(name, other) then Some(value) else GetHeader(hs, other)
    decreases |hs|
  {
    if |hs| > 0 {
      if SameName(hs[0].0, name) {
        GetWithout(hs[1..], name, other);
      } else {
        GetAfterSet(hs[1..], name, value, other);
      }
    }
  }

  /** Number of entries carrying the name. */
  function CountName(hs: HeaderList, name: string): nat
    decreases |hs|
  {
    if |hs| == 0 then 0
    else (if SameName(hs[0].0, name) then 1 else 0) + CountName(hs[1..], name)
  }

  lemma {:induction false} CountWithout(hs: HeaderList, name: string)
    ensures CountName(Without(hs, name), name) == 0
    decreases |hs|
  {
    if |hs| > 0 {
      CountWithout(hs[1..], name);
    }
  }

  lemma {:induction false} WithoutTwice(hs: HeaderList, name: string)
    ensures Without(Without(hs, name), name) == Without(hs, name)
    decreases |hs|
  {
    if |hs| > 0 {
      WithoutTwice(hs[1..], name);
    }
  }

  /** After `headers[name] = value` exactly one entry carries the name, and
      the entries of all other names are kept, in their order. */
  lemma {:induction false} SetKeepsOthers(hs: HeaderList, name: string, value: string)
    ensures CountName(SetHeader(hs, name, value), name) == 1
    ensures Without(SetHeader(hs, name, value), name) == Without(hs, name)
    decreases |hs|
  {
    if |hs| > 0 {
      if SameName(hs[0].0, name) {
        CountWithout(hs[1..], name);
        WithoutTwice(hs[1..], name);
      } else {
        SetKeepsOthers(hs[1..], name, value);
      }
    }
  }

  /** The value of the LAST entry with that name, if any. */
  function LastHeader(hs: HeaderList, name: string): Option<string>
    decreases |hs|
  {
    if |hs| == 0 then None
    else
      match LastHeader(hs[1..], name)
      case Some(v) => Some(v)
      case None => if SameName(hs[0].0, name) then Some(hs[0].1) else None
  }
}

/** Query strings and raw header lists as ordered key/value pairs, and the
    two ways the FastAPI proxy collapses them into a `dict`. */
module Pairs {
  import opened Wrappers

  type PairList = seq<(string, string)>

  /** Flask's `request.args.get(key)`: the first value for the key. */
  function FirstValue(ps: PairList, key: string): Option<string>
    decreases |ps|
  {
    if |ps| == 0 then None
    else if ps[0].0 == key then Some(ps[0].1)
    else FirstValue(ps[1..], key)
  }

  /** A key no pair carries has no value. */
  lemma {:induction false} FirstValueAbsent(ps: PairList, key: string)
    requires forall i :: 0 <= i < |ps| ==> ps[i].0 != key
    ensures FirstValue(ps, key).None?
    decreases |ps|
  {
    if |ps| > 0 {
      assert ps[0].0 != key;
      FirstValueAbsent(ps[1..], key);
    }
  }

  /** A key's first value in a concatenation comes from the front part
      when the front part has the key at all. */
  lemma {:induction false} FirstValueAppend(a: PairList, b: PairList, key: string)
    ensures FirstValue(a + b, key) == if FirstValue(a, key).Some? then FirstValue(a, key) else FirstValue(b, key)
    decreases |a|
  {
    if |a| > 0 {
      assert (a + b)[1..] == a[1..] + b;
      FirstValueAppend(a[1..], b, key);
    } else {
      assert a + b == b;
    }
  }

  /** The first value of a key in a list extended by one pair. */
  lemma {:induction false} FirstValueSnoc(init: PairList, last: (string, string))
    ensures forall k :: FirstValue(init + [last], k)
              == if FirstValue(init, k).Some? then FirstValue(init, k)
                 else if last.0 == k then Some(last.1) else None
  {
    forall k ensures FirstValue(init + [last], k)
              == if FirstValue(init, k).Some? then FirstValue(init, k)
                 else if last.0 == k then Some(last.1) else None
    {
      FirstValueAppend(init, [last], k);
      assert [last][1..] == [];
    }
  }

  /** `MultiDict.items()`, which is what `requests` reads from
      `params=request.args`: one pair per key, in the order the keys first
      appear, each holding the key's FIRST value. Later values of a
      repeated key are dropped. */
  function FirstPairs(ps: PairList): (r: PairList)
    ensures forall i, j :: 0 <= i < j < |r| ==> r[i].0 != r[j].0
    ensures forall i :: 0 <= i < |r| ==> FirstValue(ps, r[i].0) == Some(r[i].1)
    decreases |ps|
  {
    if |ps| == 0 then []
    else
      var init, last := ps[..|ps| - 1], ps[|ps| - 1];
      assert ps == init + [last];
      FirstValueSnoc(init, last);
      if FirstValue(init, last.0).Some? then FirstPairs(init) else FirstPairs(init) + [last]
  }

  /** Collapsing to one pair per key loses no key and changes no key's
      first value. */
  lemma {:induction false} FirstPairsLookup(ps: PairList, key: string)
    ensures FirstValue(FirstPairs(ps), key) == FirstValue(ps, key)
    decreases |ps|
  {
    if |ps| > 0 {
      var init, last := ps[..|ps| - 1], ps[|ps| - 1];
      assert ps == init + [last];
      FirstValueSnoc(init, last);
      FirstPairsLookup(init, key);
      if FirstValue(init, last.0).None? {
        FirstValueSnoc(FirstPairs(init), last);
      }
    }
  }

  /** The last value for the key. */
  function LastValue(ps: PairList, key: string): Option<string>
    decreases |ps|
  {
    if |ps| == 0 then None
    else if ps[|ps| - 1].0 == key then Some(ps[|ps| - 1].1)
    else LastValue(ps[..|ps| - 1], key)
  }

  /** `dict(request.headers)` in Starlette: one key per name, holding the
      FIRST value sent for it. */
  function DictFirst(ps: PairList): (m: map<string, string>)
    ensures forall k :: k in m <==> FirstValue(ps, k).Some?
    ensures forall k :: k in m ==> FirstValue(ps, k) == Some(m[k])
    decreases |ps|
  {
    if |ps| == 0 then map[] else DictFirst(ps[1..])[ps[0].0 := ps[0].1]
  }

  /** `dict(request.query_params)` in Starlette: one key per name, holding
      the LAST value sent for it. */
  function DictLast(ps: PairList): (m: map<string, string>)
    ensures forall k :: k in m <==> LastValue(ps, k).Some?
    ensures forall k :: k in m ==> LastValue(ps, k) == Some(m[k])
    decreases |ps|
  {
    if |ps| == 0 then map[]
    else DictLast(ps[..|ps| - 1])[ps[|ps| - 1].0 := ps[|ps| - 1].1]
  }
}

=== FILE: http.dfy ===
/** The records the handlers exchange with the outside world: the inbound
    request, the response (status, body, redirect target, headers, cookie
    writes), the per-browser session, the configuration, the identity
    provider's reply and the outbound call made to it. */
module Http {
  import opened Wrappers
  import opened Text
  import opened JsonValue
  import opened Headers
  import opened Pairs
  import opened Faults

  newtype byte = b: int | 0 <= b < 256

  /** `time.time()`: seconds since the epoch, never negative; a handler
      reads one instant. `int(t)` truncates, which for such `t` is
      `t.Floor`. */
  type Time = t: real | 0.0 <= t

  // ---------------------------------------------------------------------
  // configuration

  /** The deployment settings the handlers read: identity-provider
      endpoints and client credentials, the two upstream base URLs, and
      whether token cookies are marked `secure`. */
  datatype Config = Config(
    authUrl: string,
    tokenUrl: string,
    logoutUrl: string,
    clientId: string,
    clientSecret: string,
    brokerUrl: string,
    dataProductsUrl: string,
    secureCookies: bool)

  /** The values backend-sr-explorer.py falls back to when no environment
      variable is set (SECURE_COOKIES defaults to "false"). */
  const DefaultConfig := Config(
    "https://keycloak.sensorsreport.net/realms/sr/protocol/openid-connect/auth",
    "https://keycloak.sensorsreport.net/realms/sr/protocol/openid-connect/token",
    "https://keycloak.sensorsreport.net/realms/sr/protocol/openid-connect/logout",
    "ContextBroker",
    "",
    "http://orion.sensorsreport.net:31026",
    "http://localhost:8000",
    false)

  // ---------------------------------------------------------------------
  // request

  /** An inbound Flask request: the HTTP method (`verb`), `request.host`, `request.url_root`,
      headers, query arguments, parsed cookies, `request.json` (`None` when
      the body is not a JSON object) and `request.data`: the body bytes as
      werkzeug exposes them, which are empty for a form-encoded or multipart
      body because werkzeug parses those into `request.form`. */
  datatype Request = Request(
    verb: string,
    host: string,
    urlRoot: string,
    headers: HeaderList,
    args: PairList,
    cookies: map<string, string>,
    json: Option<map<string, Json>>,
    data: seq<byte>)
  {
    /** `request.cookies.get(name)`. */
    function Cookie(name: string): Option<string> {
      if name in cookies then Some(cookies[name]) else None
    }

    /** `request.args.get(name)`. */
    function Arg(name: string): Option<string> {
      FirstValue(args, name)
    }
  }

  // ---------------------------------------------------------------------
  // session

  /** `session['user']`. */
  datatype User = User(username: Json, tenant: Json)

  /** The server-side session: `oauth_state`, `user` and `tenant`. */
  datatype Session = Session(oauthState: Option<string>, user: Option<User>, tenant: Option<Json>)

  /** `session.clear()`. */
  const EmptySession := Session(None, None, None)

  function UserJson(u: User): Json {
    JObj(map["username" := u.username, "tenant" := u.tenant])
  }

  // ---------------------------------------------------------------------
  // response

  datatype SameSite = Lax | NoSameSite

  /** One `Set-Cookie` written by the response, in the order written; every
      cookie has path "/". `delete_cookie` is its own kind of write. */
  datatype CookieWrite =
    | SetCookie(name: string, value: string, maxAge: int, httpOnly: bool, secure: bool, sameSite: SameSite)
    | DeleteCookie(name: string)

  datatype Body =
    | NoBody
    | JsonBody(fields: map<string, Json>)   // `jsonify({...})`
    | RawBody(content: seq<byte>)           // bytes passed through from an upstream

  /** A redirect target: a URL and the query parameters `urlencode` appends
      to it (empty when the URL is used as built). */
  datatype Location = Location(url: string, query: seq<(string, string)>)

  datatype Response = Response(
    status: int,
    body: Body,
    location: Option<Location>,
    headers: HeaderList,
    cookies: seq<CookieWrite>)

  /** `jsonify(fields), status`. */
  function JsonResponse(status: int, fields: map<string, Json>): Response {
    Response(status, JsonBody(fields), None, [], [])
  }

  /** `jsonify({'error': message}), status`. */
  function ErrorResponse(status: int, message: string): Response {
    JsonResponse(status, map["error" := JStr(message)])
  }

  /** `jsonify({'error': prefix + str(e)}), status` for a caught exception. */
  function FaultResponse(status: int, prefix: string, f: Fault): Response {
    ErrorResponse(status, prefix + Describe(f))
  }

  /** `redirect(url)`: a 302 with the target in `Location`. */
  function Redirect(loc: Location): Response {
    Response(302, NoBody, Some(loc), [], [])
  }

  /** An exception the view does not catch: Flask answers 500 itself. */
  const InternalServerError := Response(500, NoBody, None, [], [])

  // ---------------------------------------------------------------------
  // identity provider

  /** What `requests.post` gave: a reply (status, `.text`, and `.json()`,
      `None` when the body is not JSON), or a raised transport error. */
  datatype ProviderReply =
    | Replied(status: int, text: string, json: Option<Json>)
    | TransportFailed(message: string)

  /** The outbound form post a handler makes to the identity provider. */
  datatype ProviderCall = ProviderCall(url: string, form: seq<(string, Json)>)

  /** What a handler returns: the response, the session as saved after the
      request, and the provider call it made, if any. */
  datatype Outcome = Outcome(response: Response, session: Session, call: Option<ProviderCall>)

  /** The tokens a successful grant hands back. */
  datatype TokenGrant = TokenGrant(access: string, expiresIn: int, cookies: seq<CookieWrite>)
}

=== FILE: json.dfy ===
/** JSON values as the Python handlers see them after `json.loads` or
    `request.json`, and the Python built-ins the handlers apply to them:
    truthiness (`if not x`), `dict.get`, the `in` operator, `int`-like use
    of a number, and `str()`. Numbers are integers only. */
module JsonValue {
  import opened Wrappers
  import Text

  datatype Json =
    | JNull
    | JBool(b: bool)
    | JInt(i: int)
    | JStr(s: string)
    | JArr(items: seq<Json>)
    | JObj(fields: map<string, Json>)

  /** A decoded token payload: the JSON object of claims. */
  type ClaimMap = map<string, Json>

  /** Python truthiness: `None`, `False`, `0`, `""`, `[]` and `{}` are false. */
  predicate Truthy(j: Json) {
    match j
    case JNull => false
    case JBool(b) => b
    case JInt(i) => i != 0
    case JStr(s) => s != ""
    case JArr(xs) => |xs| > 0
    case JObj(m) => |m| > 0
  }

  /** Truthiness of a possibly absent string (a header, cookie or query arg). */
  predicate Present(o: Option<string>) {
    o.Some? && o.value != ""
  }

  /** `m.get(key, default)`. */
  function Get(m: map<string, Json>, key: string, default: Json): (r: Json)
    ensures key in m ==> r == m[key]
    ensures key !in m ==> r == default
  {
    if key in m then m[key] else default
  }

  /** The integer a value stands for in Python arithmetic and comparisons:
      an int, or a bool (Python's `bool` is a subclass of `int`). Any other
      value makes `-`, `*` or `<` raise `TypeError`, rendered as `None`. */
  function AsPyInt(j: Json): (r: Option<int>)
    ensures r.Some? <==> j.JInt? || j.JBool?
  {
    match j
    case JInt(i) => Some(i)
    case JBool(b) => Some(if b then 1 else 0)
    case _ => None
  }

  /** Python's `key in container` for a string key: key membership for a
      dict, element membership for a list, substring for a string, and
      `TypeError` (rendered as `None`) for numbers, booleans and `None`. */
  function PyIn(key: string, container: Json): (r: Option<bool>)
    ensures r.None? <==> container.JNull? || container.JBool? || container.JInt?
    ensures container.JObj? ==> r == Some(key in container.fields)
  {
    match container
    case JObj(m) => Some(key in m)
    case JArr(xs) => Some(JStr(key) in xs)
    case JStr(s) => Some(Text.Contains(s, key))
    case _ => None
  }

  /** Python's `str(x)` for scalars; lists and dicts are not rendered. */
  function PyStr(j: Json): string {
    match j
    case JNull => "None"
    case JBool(b) => if b then "True" else "False"
    case JInt(i) => Text.IntToString(i)
    case JStr(s) => s
    case JArr(_) => "[...]"
    case JObj(_) => "{...}"
  }
}

=== FILE: jwt.dfy ===
/** The exceptions the handlers raise, caught or not, and the text
    `str(e)` gives for them. */
module Faults {

  datatype Fault =
    | Transport(message: string)   // requests raised: no reply from the peer
    | NotJson                      // `response.json()` on a non-JSON body
    | KeyError(key: string)        // `d[key]` with the key absent
    | TypeError                    // a value of the wrong type was used
    | IndexError                   // `token.split('.')[1]` on a dot-free token
    | DecodeError                  // base64 or JSON decoding failed, or the payload is not an object

  /** `str(e)`: exact for transport errors, `KeyError` and `IndexError`; a
      fixed description for the others, whose Python text depends on
      library internals. */
  function Describe(f: Fault): string {
    match f
    case Transport(m) => m
    case NotJson => "Expecting value: line 1 column 1 (char 0)"
    case KeyError(k) => "'" + k + "'"
    case TypeError => "unsupported operand type"
    case IndexError => "list index out of range"
    case DecodeError => "token segment could not be decoded"
  }
}

/** The JWT payload codec: split on '.', pad the segment with '=' to a
    multiple of four, then base64- and JSON-decode it. The signature is
    never checked. Base64 and JSON decoding are one uninterpreted partial
    function, passed in as a `SegmentDecoder`. */
module Jwt {
  import opened Wrappers
  import opened Text
  import opened JsonValue
  import opened Faults

  /** `json.loads(base64.b64decode(segment))` on an already padded segment;
      `None` when either step raises. */
  type SegmentDecoder = string -> Option<Json>

  predicate Aligned(n: int) {
    n % 4 == 0
  }

  /** `(4 - n % 4) % 4`: the number of '=' that brings a segment of length
      `n` to the next multiple of four, and no more. */
  function PadCount(n: nat): (k: nat)
    ensures k <= 3
    ensures Aligned(n + k)
    ensures forall m :: n <= m < n + k ==> !Aligned(m)
  {
    (4 - n % 4) % 4
  }

  /** `segment += '=' * ((4 - len(segment) % 4) % 4)`: the shortest
      '='-extension of the segment whose length is a multiple of four;
      an aligned segment is left unchanged. */
  function Pad(seg: string): (p: string)
    ensures Aligned(|p|)
    ensures |p| - |seg| <= 3
    ensures StartsWith(p, seg)
    ensures forall i :: |seg| <= i < |p| ==> p[i] == '='
    ensures forall m :: |seg| <= m < |p| ==> !Aligned(m)
    ensures Aligned(|seg|) ==> p == seg
  {
    var p := seg + Repeat('=', PadCount(|seg|));
    assert p[..|seg|] == seg;
    p
  }

  /** Padding does not care how much of its own padding a segment already
      carries: a segment that keeps `j` of the `=` it needs pads to the same
      string as the bare segment. */
  lemma PadAbsorbsPadding(seg: string, j: nat)
    requires j <= PadCount(|seg|)
    ensures Pad(seg + Repeat('=', j)) == Pad(seg)
  {
  }

  /** `token.split('.')`. */
  function Segments(token: string): (parts: seq<string>)
    ensures |parts| >= 1
  {
    Split(token, '.')
  }

  /** Decodes one segment the way every handler does: pad, then decode. */
  function DecodeSegment(dec: SegmentDecoder, seg: string): (r: Result<Json, Fault>)
    ensures r.Ok? <==> dec(Pad(seg)).Some?
  {
    match dec(Pad(seg))
    case Some(j) => Ok(j)
    case None => Err(DecodeError)
  }

  /** The claims of `token.split('.')[1]`. Only index 1 is read, so every
      token with two or more segments is attempted; a payload that is not a
      JSON object fails like an undecodable one. */
  function DecodeClaims(dec: SegmentDecoder, token: string): (r: Result<ClaimMap, Fault>)
    ensures |Segments(token)| < 2 ==> r == Err(IndexError)
    ensures r.Ok? ==> |Segments(token)| >= 2 && dec(Pad(Segments(token)[1])) == Some(JObj(r.value))
  {
    var parts := Segments(token);
    if |parts| < 2 then Err(IndexError)
    else
      match dec(Pad(parts[1]))
      case Some(JObj(m)) => Ok(m)
      case _ => Err(DecodeError)
  }

  /** Round trip: a token assembled from dot-free header, payload and
      signature segments splits back into exactly three segments, and its
      claims are what the payload encodes, whether the issuer stripped all,
      some or none of the payload's base64 padding. */
  lemma PayloadRoundTrip(dec: SegmentDecoder, header: string, payload: string,
                         signature: string, claims: ClaimMap, j: nat)
    requires '.' !in header && '.' !in payload && '.' !in signature
    requires dec(Pad(payload)) == Some(JObj(claims))
    requires j <= PadCount(|payload|)
    ensures Segments(header + "." + payload + Repeat('=', j) + "." + signature)
            == [header, payload + Repeat('=', j), signature]
    ensures DecodeClaims(dec, header + "." + payload + Repeat('=', j) + "." + signature)
            == Ok(claims)
  {
    var carried := payload + Repeat('=', j);
    var parts := [header, carried, signature];
    assert '.' !in carried by {
      assert forall i :: 0 <= i < |carried| ==> carried[i] != '.' by {
        forall i | 0 <= i < |carried| ensures carried[i] != '.' {
          if i < |payload| {
            assert carried[i] == payload[i];
          } else {
            assert carried[i] == Repeat('=', j)[i - |payload|];
          }
        }
      }
    }
    assert Join(parts, '.') == header + "." + payload + Repeat('=', j) + "." + signature by {
      assert parts[1..] == [carried, signature];
      assert [carried, signature][1..] == [signature];
      assert Join([carried, signature], '.') == carried + "." + signature;
      assert Join(parts, '.') == header + "." + (carried + "." + signature);
    }
    SplitOfJoin(parts, '.');
    PadAbsorbsPadding(payload, j);
  }
}

=== FILE: proxy.dfy ===
/** The two forwarding proxies of the Flask backend: `/api/ngsi-ld/v1/...`
    to the NGSI-LD context broker and `/api/data-products[/...]` to the
    data-products API. Both answer CORS preflights themselves, gate on the
    access cookie, build a fresh outbound header set, and relay the
    upstream's status, body and an allowlisted subset of its headers. */
module FlaskProxy {
  import opened Wrappers
  import opened Text
  import opened JsonValue
  import opened Headers
  import opened Pairs
  import opened Http

  datatype Upstream = NgsiLd | DataProducts

  // ---------------------------------------------------------------------
  // CORS

  const AllowOrigin := "Access-Control-Allow-Origin"
  const AllowHeadersName := "Access-Control-Allow-Headers"
  const AllowMethodsName := "Access-Control-Allow-Methods"
  const AllowedMethods := "GET, POST, PUT, DELETE, PATCH, OPTIONS"

  /** The request headers each upstream's preflight admits. */
  function AllowedRequestHeaders(u: Upstream): string {
    match u
    case NgsiLd => "Content-Type, Authorization, NGSILD-Tenant"
    case DataProducts => "Content-Type, Authorization"
  }

  /** The answer to an `OPTIONS` request, given without contacting the
      upstream or looking at cookies. */
  function Preflight(u: Upstream): Response {
    Response(200, NoBody, None,
      [(AllowOrigin, "*"), (AllowHeadersName, AllowedRequestHeaders(u)), (AllowMethodsName, AllowedMethods)], [])
  }

  // ---------------------------------------------------------------------
  // the cookie gate and the target

  /** The broker always needs a non-empty access cookie; the data-products
      API lets a `GET` through without one. */
  predicate Admitted(u: Upstream, req: Request) {
    Present(req.Cookie("access_token")) || (u == DataProducts && req.verb == "GET")
  }

  /** Where the request goes: the broker's `/ngsi-ld/v1/<subpath>`, or the
      data-products `/api/data-products` with `/<subpath>` only when the
      subpath is non-empty. */
  function TargetUrl(cfg: Config, u: Upstream, subpath: string): (url: string)
    ensures u == NgsiLd ==> StartsWith(url, cfg.brokerUrl + "/ngsi-ld/v1/")
    ensures u == DataProducts ==> StartsWith(url, cfg.dataProductsUrl + "/api/data-products")
    ensures u == NgsiLd ==> url == cfg.brokerUrl + "/ngsi-ld/v1/" + subpath
    ensures u == DataProducts && subpath != "" ==> url == cfg.dataProductsUrl + "/api/data-products/" + subpath
    ensures u == DataProducts && subpath == "" ==> url == cfg.dataProductsUrl + "/api/data-products"
  {
    match u
    case NgsiLd => cfg.brokerUrl + "/ngsi-ld/v1/" + subpath
    case DataProducts =>
      if subpath != "" then cfg.dataProductsUrl + "/api/data-products/" + subpath
      else cfg.dataProductsUrl + "/api/data-products"
  }

  // ---------------------------------------------------------------------
  // outbound headers

  /** The `NGSILD-Tenant` header is forwarded only when it is present,
      non-empty, not "default" in any letter case, and not exactly
      "Synchro" (the second comparison is case-sensitive). */
  predicate ForwardsTenant(req: Request) {
    var t := GetHeader(req.headers, "NGSILD-Tenant");
    Present(t) && Lower(t.value) != "default" && t.value != "Synchro"
  }

  /** The `Authorization` value sent upstream: the client's own header
      when it sent one (even empty); for the data-products API only,
      otherwise the access cookie as a bearer token. */
  function OutboundAuthorization(u: Upstream, req: Request): Option<string> {
    match GetHeader(req.headers, "Authorization")
    case Some(a) => Some(a)
    case None =>
      if u == DataProducts && Present(req.Cookie("access_token"))
      then Some("Bearer " + req.Cookie("access_token").value)
      else None
  }

  /** The names the outbound header set can hold; nothing else the client
      sent (cookies, `Host`, custom headers) is forwarded. */
  const OutboundNames: set<string> := {"Content-Type", "Accept", "NGSILD-Tenant", "Authorization"}

  /** Every entry of the list carries one of the outbound names. */
  predicate OnlyOutboundNames(hs: HeaderList) {
    forall i :: 0 <= i < |hs| ==> hs[i].0 in OutboundNames
  }

  /** `Content-Type` and `Accept`, defaulting to JSON. */
  function BasePart(req: Request): (hs: HeaderList)
    ensures OnlyOutboundNames(hs)
    ensures FirstValue(hs, "Content-Type") == Some(GetHeader(req.headers, "Content-Type").GetOr("application/json"))
    ensures FirstValue(hs, "Accept") == Some(GetHeader(req.headers, "Accept").GetOr("application/json"))
    ensures FirstValue(hs, "NGSILD-Tenant").None? && FirstValue(hs, "Authorization").None?
  {
    var hs := [("Content-Type", GetHeader(req.headers, "Content-Type").GetOr("application/json")),
               ("Accept", GetHeader(req.headers, "Accept").GetOr("application/json"))];
    assert |hs[0].0| == 12 && |hs[1].0| == 6;
    FirstValueAbsent(hs, "NGSILD-Tenant");
    FirstValueAbsent(hs, "Authorization");
    hs
  }

  /** The tenant entry, when the filter lets it through. */
  function TenantPart(u: Upstream, req: Request): (hs: HeaderList)
    ensures OnlyOutboundNames(hs)
    ensures FirstValue(hs, "NGSILD-Tenant")
            == if u == NgsiLd && ForwardsTenant(req) then GetHeader(req.headers, "NGSILD-Tenant") else None
    ensures FirstValue(hs, "Content-Type").None? && FirstValue(hs, "Accept").None?
    ensures FirstValue(hs, "Authorization").None?
  {
    if u == NgsiLd && ForwardsTenant(req)
    then [("NGSILD-Tenant", GetHeader(req.headers, "NGSILD-Tenant").value)] else []
  }

  /** The authorization entry, when there is one. */
  function AuthPart(u: Upstream, req: Request): (hs: HeaderList)
    ensures OnlyOutboundNames(hs)
    ensures FirstValue(hs, "Authorization") == OutboundAuthorization(u, req)
    ensures FirstValue(hs, "Content-Type").None? && FirstValue(hs, "Accept").None?
    ensures FirstValue(hs, "NGSILD-Tenant").None?
  {
    match OutboundAuthorization(u, req)
    case Some(a) => [("Authorization", a)]
    case None => []
  }

  lemma OnlyOutboundNamesAppend(a: HeaderList, b: HeaderList)
    requires OnlyOutboundNames(a) && OnlyOutboundNames(b)
    ensures OnlyOutboundNames(a + b)
  {
  }

  /** The `headers` dict built for the upstream request: only the four
      outbound names; JSON defaults for the content headers; the tenant
      exactly when the filter passes; the client's authorization, or the
      cookie's bearer token for the data-products API. */
  function OutboundHeaders(u: Upstream, req: Request): (hs: HeaderList)
    ensures OnlyOutboundNames(hs)
    ensures FirstValue(hs, "Content-Type") == Some(GetHeader(req.headers, "Content-Type").GetOr("application/json"))
    ensures FirstValue(hs, "Accept") == Some(GetHeader(req.headers, "Accept").GetOr("application/json"))
    ensures FirstValue(hs, "NGSILD-Tenant").Some? <==> u == NgsiLd && ForwardsTenant(req)
    ensures FirstValue(hs, "NGSILD-Tenant").Some? ==> FirstValue(hs, "NGSILD-Tenant") == GetHeader(req.headers, "NGSILD-Tenant")
    ensures FirstValue(hs, "Authorization") == OutboundAuthorization(u, req)
  {
    var base := BasePart(req);
    var tenant := TenantPart(u, req);
    var auth := AuthPart(u, req);
    OnlyOutboundNamesAppend(base, tenant);
    OnlyOutboundNamesAppend(base + tenant, auth);
    OutboundLookups(base, tenant, auth, "Content-Type");
    OutboundLookups(base, tenant, auth, "Accept");
    OutboundLookups(base, tenant, auth, "NGSILD-Tenant");
    OutboundLookups(base, tenant, auth, "Authorization");
    base + tenant + auth
  }

  /** Splits a lookup in the three-part outbound header list. */
  lemma {:induction false} OutboundLookups(base: PairList, tenant: PairList, auth: PairList, key: string)
    ensures FirstValue(base + tenant + auth, key)
            == if FirstValue(base, key).Some? then FirstValue(base, key)
               else if FirstValue(tenant, key).Some? then FirstValue(tenant, key)
               else FirstValue(auth, key)
  {
    FirstValueAppend(base + tenant, auth, key);
    FirstValueAppend(base, tenant, key);
  }

  // ---------------------------------------------------------------------
  // relaying the reply

  /** The upstream's reply to `requests.request`, or the
      `requests.RequestException` it raised. `headers` is
      `response.headers.items()`: one entry per case-insensitive name, a
      header sent several times having already been joined by urllib3 into
      one value separated by ", ". So "the last upstream value" of a name
      is that joined value. */
  datatype UpstreamReply =
    | Answered(status: int, headers: HeaderList, content: seq<byte>)
    | Unreachable(message: string)

  /** The request sent upstream: method, URL, headers, the query pairs
      `requests` encodes from `params=request.args`, `request.data`, and the
      30-second timeout. */
  datatype Forward = Forward(verb: string, url: string, headers: HeaderList, params: PairList,
                             data: seq<byte>, timeout: nat)

  datatype ProxyOutcome = ProxyOutcome(response: Response, forward: Option<Forward>)

  /** The upstream response headers that reach the client. */
  predicate Relayed(name: string) {
    Lower(name) in ["content-type", "content-length", "cache-control", "etag", "last-modified"]
  }

  /** The headers `make_response(content, status)` starts with. */
  function BaseHeaders(content: seq<byte>): HeaderList {
    [("Content-Type", "text/html; charset=utf-8"), ("Content-Length", NatToString(|content|))]
  }

  /** The copy loop: `proxy_response.headers[h] = v` for each allowlisted
      upstream header, in order. */
  function CopyRelayed(acc: HeaderList, hs: HeaderList): HeaderList
    decreases |hs|
  {
    if |hs| == 0 then acc
    else CopyRelayed(if Relayed(hs[0].0) then SetHeader(acc, hs[0].0, hs[0].1) else acc, hs[1..])
  }

  /** After the copy loop a name reads as the LAST upstream value under it
      when it is allowlisted and the upstream sent it, and as before
      otherwise. */
  lemma {:induction false} CopyRelayedLookup(acc: HeaderList, hs: HeaderList, name: string)
    ensures GetHeader(CopyRelayed(acc, hs), name)
            == if Relayed(name) && LastHeader(hs, name).Some? then LastHeader(hs, name)
               else GetHeader(acc, name)
    decreases |hs|
  {
    if |hs| > 0 {
      var acc' := if Relayed(hs[0].0) then SetHeader(acc, hs[0].0, hs[0].1) else acc;
      CopyRelayedLookup(acc', hs[1..], name);
      if Relayed(hs[0].0) {
        GetAfterSet(acc, hs[0].0, hs[0].1, name);
      }
      if SameName(hs[0].0, name) {
        assert Relayed(hs[0].0) == Relayed(name);
      }
    }
  }

  /** The headers of a relayed reply: the base headers, the allowlisted
      upstream headers copied over them, then the two CORS headers. */
  function RelayHeaders(u: Upstream, upstream: HeaderList, content: seq<byte>): HeaderList {
    var copied := CopyRelayed(BaseHeaders(content), upstream);
    SetHeader(SetHeader(copied, AllowOrigin, "*"), AllowHeadersName, AllowedRequestHeaders(u))
  }

  /** What the client reads under any header name of a relayed reply. */
  lemma {:induction false} RelayedHeaderLookup(u: Upstream, upstream: HeaderList, content: seq<byte>, name: string)
    ensures GetHeader(RelayHeaders(u, upstream, content), name)
            == if SameName(AllowHeadersName, name) then Some(AllowedRequestHeaders(u))
               else if SameName(AllowOrigin, name) then Some("*")
               else if Relayed(name) && LastHeader(upstream, name).Some? then LastHeader(upstream, name)
               else GetHeader(BaseHeaders(content), name)
  {
    var copied := CopyRelayed(BaseHeaders(content), upstream);
    var withOrigin := SetHeader(copied, AllowOrigin, "*");
    GetAfterSet(withOrigin, AllowHeadersName, AllowedRequestHeaders(u), name);
    GetAfterSet(copied, AllowOrigin, "*", name);
    CopyRelayedLookup(BaseHeaders(content), upstream, name);
  }

  /** The JSON answer to a transport error: 503 when the message says the
      connection was refused, 500 otherwise, with the message attached. */
  function ProxyError(u: Upstream, message: string): (r: Response)
    ensures r.status == (if Contains(message, "Connection refused") then 503 else 500)
    ensures r.body.JsonBody? && "technical_details" in r.body.fields
            && r.body.fields["technical_details"] == JStr(message)
  {
    var refused := Contains(message, "Connection refused");
    var text := match (u, refused)
      case (NgsiLd, true) => "Unable to connect to the NGSI-LD broker. The service may be unavailable."
      case (NgsiLd, false) => "Error communicating with the NGSI-LD broker"
      case (DataProducts, true) => "Unable to connect to the Data Products API. The service may be unavailable."
      case (DataProducts, false) => "Error communicating with the Data Products API";
    JsonResponse(if refused then 503 else 500, map["error" := JStr(text), "technical_details" := JStr(message)])
  }

  const UnauthorizedMessage := "Unauthorized access. Please log in first."

  /** `ngsi_ld_proxy` and `data_products_proxy`. `OPTIONS` is answered
      locally; a request the cookie gate refuses gets 401 and is not
      forwarded; everything else is forwarded once, and the upstream's
      status and bytes come back unchanged. The query arguments go upstream
      one per name, with the first value of a repeated name. Proxies never
      write cookies. */
  function Proxy(cfg: Config, u: Upstream, req: Request, subpath: string, reply: UpstreamReply): (o: ProxyOutcome)
    ensures o.response.cookies == []
    ensures req.verb == "OPTIONS" ==> o == ProxyOutcome(Preflight(u), None)
    ensures req.verb != "OPTIONS" && !Admitted(u, req)
            ==> o == ProxyOutcome(ErrorResponse(401, UnauthorizedMessage), None)
    ensures o.forward.Some? <==> req.verb != "OPTIONS" && Admitted(u, req)
    ensures o.forward.Some? ==>
              o.forward.value == Forward(req.verb, TargetUrl(cfg, u, subpath), OutboundHeaders(u, req), FirstPairs(req.args), req.data, 30)
    ensures o.forward.Some? && reply.Answered? ==>
              && o.response.status == reply.status
              && o.response.body == RawBody(reply.content)
              && o.response.headers == RelayHeaders(u, reply.headers, reply.content)
    ensures o.forward.Some? && reply.Unreachable? ==> o.response == ProxyError(u, reply.message)
  {
    if req.verb == "OPTIONS" then ProxyOutcome(Preflight(u), None)
    else if !Admitted(u, req) then ProxyOutcome(ErrorResponse(401, UnauthorizedMessage), None)
    else
      var fwd := Forward(req.verb, TargetUrl(cfg, u, subpath), OutboundHeaders(u, req), FirstPairs(req.args), req.data, 30);
      match reply
      case Unreachable(m) => ProxyOutcome(ProxyError(u, m), Some(fwd))
      case Answered(status, hs, content) =>
        ProxyOutcome(Response(status, RawBody(content), None, RelayHeaders(u, hs, content), []), Some(fwd))
  }

  /** Every query argument reaches the upstream with the value Flask's
      `request.args.get` reads, and no name is sent twice: a name the
      client repeats goes upstream with its first value only. */
  lemma {:induction false} ForwardedArgs(cfg: Config, u: Upstream, req: Request, subpath: string,
                                         reply: UpstreamReply, name: string)
    ensures Proxy(cfg, u, req, subpath, reply).forward.Some? ==>
              var params := Proxy(cfg, u, req, subpath, reply).forward.value.params;
              && FirstValue(params, name) == req.Arg(name)
              && forall i, j :: 0 <= i < j < |params| ==> params[i].0 != params[j].0
  {
    FirstPairsLookup(req.args, name);
  }

  /** The tenant filter on concrete values: "default" is dropped in any
      letter case, "Synchro" only in exactly that spelling. */
  lemma {:induction false} TenantFilterExamples(req: Request)
    ensures GetHeader(req.headers, "NGSILD-Tenant") == Some("DEFAULT") ==> !ForwardsTenant(req)
    ensures GetHeader(req.headers, "NGSILD-Tenant") == Some("Synchro") ==> !ForwardsTenant(req)
    ensures GetHeader(req.headers, "NGSILD-Tenant") == Some("synchro") ==> ForwardsTenant(req)
  {
    assert Lower("DEFAULT") == "default";
    assert Lower("synchro") == "synchro";
  }
}

=== FILE: tenant.dfy ===
/** The tenant resolver: the `if 'TenantId' in token_data ... elif ...` chain
    that every handler repeats, written once. */
module Tenant {
  import opened Wrappers
  import opened JsonValue

  const DefaultTenant: Json := JStr("Default")

  /** The claim names the chain consults, in the order it consults them. */
  const TenantKeys: seq<string> := ["TenantId", "tenant_id", "tenantId", "Tenant", "tenant"]

  /** None of the five tenant claims is present. */
  predicate NoTenantClaim(claims: ClaimMap) {
    forall i :: 0 <= i < |TenantKeys| ==> TenantKeys[i] !in claims
  }

  /** What a present `TenantId` claim yields: the first element of a
      non-empty list, the string itself (even when empty), and "Default"
      for anything else -- the later keys are not consulted. */
  function TenantIdValue(v: Json): Json {
    match v
    case JArr(xs) => if |xs| > 0 then xs[0] else DefaultTenant
    case JStr(_) => v
    case _ => DefaultTenant
  }

  /** Index in `keys` of the first key present in the claims. */
  function FirstPresent(keys: seq<string>, claims: ClaimMap): (r: Option<nat>)
    ensures r.Some? ==> r.value < |keys| && keys[r.value] in claims
    ensures r.Some? ==> forall i :: 0 <= i < r.value ==> keys[i] !in claims
    ensures r.None? ==> forall i :: 0 <= i < |keys| ==> keys[i] !in claims
    decreases |keys|
  {
    if |keys| == 0 then None
    else if keys[0] in claims then Some(0)
    else
      match FirstPresent(keys[1..], claims)
      case Some(i) => Some(i + 1)
      case None => None
  }

  /** The precedence rule stated on its own: the first present key of
      `TenantKeys` decides, `TenantId` read through `TenantIdValue` and the
      others taken as they are; with no key present, the fallback. */
  function ByPrecedence(claims: ClaimMap, fallback: Json): Json {
    match FirstPresent(TenantKeys, claims)
    case None => fallback
    case Some(i) => if i == 0 then TenantIdValue(claims[TenantKeys[0]]) else claims[TenantKeys[i]]
  }

  /** The chain as the handlers write it. `fallback` is what its `else`
      branch assigns: "Default" in every handler except get_user_info, which
      falls back to the session's tenant. Any claim value is taken, not only
      strings. */
  function Resolve(claims: ClaimMap, fallback: Json): (t: Json)
    ensures t == ByPrecedence(claims, fallback)
    ensures NoTenantClaim(claims) ==> t == fallback
    ensures "TenantId" in claims ==> t == TenantIdValue(claims["TenantId"])
  {
    if "TenantId" in claims then TenantIdValue(claims["TenantId"])
    else if "tenant_id" in claims then claims["tenant_id"]
    else if "tenantId" in claims then claims["tenantId"]
    else if "Tenant" in claims then claims["Tenant"]
    else if "tenant" in claims then claims["tenant"]
    else fallback
  }

  /** The fallback is consulted only when none of the five claims is
      present: with any of them present, two fallbacks give one tenant. */
  lemma FallbackOnlyWithoutTenantClaim(claims: ClaimMap, f1: Json, f2: Json)
    ensures Resolve(claims, f1) != Resolve(claims, f2) ==> NoTenantClaim(claims)
  {
  }

  /** A present but empty `TenantId` list gives "Default" even when a later
      key holds a tenant; so does a non-string, non-list `TenantId`. */
  lemma EmptyTenantIdShadowsLaterKeys(claims: ClaimMap, fallback: Json)
    requires "TenantId" in claims
    requires claims["TenantId"] == JArr([]) || claims["TenantId"].JNull? || claims["TenantId"].JInt?
    ensures Resolve(claims, fallback) == DefaultTenant
  {
  }
}

=== FILE: text.dfy ===
/** The handful of Python `str` operations the handlers rely on, written out:
    `split` with a one-character separator and its inverse `join`, `rstrip`,
    `startswith`, substring `in`, ASCII `lower`, slicing, and the decimal
    rendering `str(int)` together with its parser. */
module Text {

  // ---------------------------------------------------------------------
  // split / join

  /** Python's `s.split(sep)` for a one-character separator: always at least
      one part, no part contains the separator, and joining the parts with
      the separator gives back `s`. */
  function Split(s: string, sep: char): (parts: seq<string>)
    ensures |parts| >= 1
    ensures forall i :: 0 <= i < |parts| ==> sep !in parts[i]
    ensures Join(parts, sep) == s
    decreases |s|
  {
    if |s| == 0 then [""]
    else if s[0] == sep then
      var rest := Split(s[1..], sep);
      assert ([""] + rest)[1..] == rest;
      [""] + rest
    else
      var rest := Split(s[1..], sep);
      var parts := [[s[0]] + rest[0]] + rest[1..];
      assert parts[1..] == rest[1..];
      parts
  }

  /** Python's `sep.join(parts)`. */
  function Join(parts: seq<string>, sep: char): string
    decreases |parts|
  {
    if |parts| == 0 then ""
    else if |parts| == 1 then parts[0]
    else parts[0] + [sep] + Join(parts[1..], sep)
  }

  /** Number of occurrences of `c` in `s`. */
  function Count(s: string, c: char): nat
    decreases |s|
  {
    if |s| == 0 then 0
    else (if s[0] == c then 1 else 0) + Count(s[1..], c)
  }

  /** Splitting a string that starts with a separator-free prefix `a` glues
      `a` onto the first part of the rest. */
  lemma {:induction false} SplitPrefix(a: string, rest: string, sep: char)
    requires sep !in a
    ensures Split(a + rest, sep) == [a + Split(rest, sep)[0]] + Split(rest, sep)[1..]
    decreases |a|
  {
    if |a| > 0 {
      assert (a + rest)[0] == a[0];
      assert (a + rest)[1..] == a[1..] + rest;
      SplitPrefix(a[1..], rest, sep);
      assert [a[0]] + (a[1..] + Split(rest, sep)[0]) == a + Split(rest, sep)[0];
    } else {
      assert a + rest == rest;
      var parts := Split(rest, sep);
      assert a + parts[0] == parts[0];
      assert [parts[0]] + parts[1..] == parts;
    }
  }

  /** The other half of the split/join round trip: a non-empty list of
      separator-free parts is recovered by splitting its join. */
  lemma {:induction false} SplitOfJoin(parts: seq<string>, sep: char)
    requires |parts| >= 1
    requires forall i :: 0 <= i < |parts| ==> sep !in parts[i]
    ensures Split(Join(parts, sep), sep) == parts
    decreases |parts|
  {
    if |parts| == 1 {
      SplitPrefix(parts[0], "", sep);
      assert parts[0] + "" == parts[0];
    } else {
      var tail := Join(parts[1..], sep);
      SplitOfJoin(parts[1..], sep);
      assert Split([sep] + tail, sep) == [""] + parts[1..] by {
        assert ([sep] + tail)[0] == sep;
        assert ([sep] + tail)[1..] == tail;
      }
      assert Join(parts, sep) == parts[0] + ([sep] + tail);
      SplitPrefix(parts[0], [sep] + tail, sep);
      assert ([""] + parts[1..])[1..] == parts[1..];
      assert parts[0] + "" == parts[0];
      assert [parts[0]] + parts[1..] == parts;
    }
  }

  /** `s.split(sep)` has exactly one more part than `s` has separators;
      in particular a token splits into 3 parts iff it holds exactly 2 dots. */
  lemma {:induction false} SplitCount(s: string, sep: char)
    ensures |Split(s, sep)| == Count(s, sep) + 1
    decreases |s|
  {
    if |s| > 0 {
      SplitCount(s[1..], sep);
    }
  }

  // ---------------------------------------------------------------------
  // other string predicates and transformations

  /** Python's `s.startswith(p)`. */
  predicate StartsWith(s: string, p: string) {
    |p| <= |s| && s[..|p|] == p
  }

  /** `sub` occurs in `s` starting at index `i`. */
  predicate OccursAt(s: string, sub: string, i: int) {
    0 <= i <= |s| - |sub| && s[i..i + |sub|] == sub
  }

  /** Python's `sub in s` for strings. */
  predicate Contains(s: string, sub: string) {
    exists i | 0 <= i <= |s| - |sub| :: OccursAt(s, sub, i)
  }

  /** Python's `s[:n]`: at most the first `n` characters. */
  function Take(s: string, n: nat): (r: string)
    ensures |r| == if |s| < n then |s| else n
    ensures StartsWith(s, r)
  {
    if |s| <= n then s else s[..n]
  }

  function LowerChar(c: char): char {
    if 'A' <= c <= 'Z' then (c as int + 32) as char else c
  }

  /** `s.lower()` restricted to ASCII letters. */
  function Lower(s: string): (r: string)
    ensures |r| == |s|
    ensures forall i :: 0 <= i < |s| ==> r[i] == LowerChar(s[i])
  {
    seq(|s|, i requires 0 <= i < |s| => LowerChar(s[i]))
  }

  predicate IsDigit(c: char) {
    '0' <= c <= '9'
  }

  /** `s.isdigit()` restricted to ASCII digits: non-empty and all digits. */
  predicate IsDigits(s: string) {
    |s| > 0 && forall i :: 0 <= i < |s| ==> IsDigit(s[i])
  }

  /** Python's `s.rstrip(c)` for one character `c`. */
  function RStrip(s: string, c: char): (r: string)
    ensures StartsWith(s, r)
    ensures |r| == 0 || r[|r| - 1] != c
    ensures forall i :: |r| <= i < |s| ==> s[i] == c
    decreases |s|
  {
    if |s| > 0 && s[|s| - 1] == c then RStrip(s[..|s| - 1], c) else s
  }

  /** `c * n` in Python. */
  function Repeat(c: char, n: nat): (r: string)
    ensures |r| == n
    ensures forall i :: 0 <= i < n ==> r[i] == c
  {
    seq(n, i => c)
  }

  // ---------------------------------------------------------------------
  // decimal numbers

  function DigitChar(d: nat): char
    requires d < 10
  {
    "0123456789"[d]
  }

  function DigitValue(c: char): nat
    requires IsDigit(c)
  {
    c as int - '0' as int
  }

  /** Python's `str(n)` for a natural number. */
  function NatToString(n: nat): string
    decreases n
  {
    if n < 10 then [DigitChar(n)] else NatToString(n / 10) + [DigitChar(n % 10)]
  }

  /** Python's `str(i)` for any integer. */
  function IntToString(i: int): string {
    if i < 0 then "-" + NatToString(-i) else NatToString(i)
  }

  /** Python's `int(s)` on a string of ASCII digits. */
  function ParseNat(s: string): nat
    requires forall i :: 0 <= i < |s| ==> IsDigit(s[i])
    decreases |s|
  {
    if |s| == 0 then 0 else ParseNat(s[..|s| - 1]) * 10 + DigitValue(s[|s| - 1])
  }

  /** The decimal rendering is made of digits only and reads back as the
      number it renders. */
  lemma {:induction false} ParseNatToString(n: nat)
    ensures IsDigits(NatToString(n))
    ensures ParseNat(NatToString(n)) == n
    decreases n
  {
    if n >= 10 {
      ParseNatToString(n / 10);
      var s := NatToString(n / 10) + [DigitChar(n % 10)];
      assert s[..|s| - 1] == NatToString(n / 10);
    }
  }
}

=== FILE: wrappers.dfy ===
/** Option and Result: the model's stand-ins for Python's `None` and for the
    exceptions the handlers raise and catch. Both work with `:-`. */
module Wrappers {

  datatype Option<+T> = None | Some(value: T) {

    /** `d.get(key, default)`-style access: the value, or the default. */
    function GetOr(default: T): T {
      match this
      case Some(v) => v
      case None => default
    }
  }

  datatype Result<+T, +E> = Ok(value: T) | Err(error: E) {

    predicate IsFailure() {
      Err?
    }

    function PropagateFailure<U>(): Result<U, E>
      requires Err?
    {
      Err(error)
    }

    function Extract(): T
      requires Ok?
    {
      value
    }
  }
}
